=== FILE: README.md ===
# rpi-mediaplayer: packet FIFO and playback decisions in Dafny

This project models the core of rpi-mediaplayer, a media player for the
Raspberry Pi. The player demuxes a file with ffmpeg. It queues video and audio
packets in two bounded packet FIFOs. Two decoding threads feed the queued
packets to the OpenMAX decoders, and a console front end turns keystrokes into
player calls.

What is modelled:

- **The packet FIFO** (`src/packet_buffer.c`). The FIFO is a ring of packet
  slots with a front, a back, a packet count, a byte total and a byte budget.
  It grows by 1000 slots when one free slot is left.
  - Module `Fifo` is a reference bounded queue.
  - Module `PacketBuffer` is the ring. The function `Contents` maps a ring to
    its logical queue. The ring invariant is `Shape`: `n < capacity` and
    `back == (front + n) % capacity`. The accounting invariant is `Valid`: the
    byte total is the sum of the queued sizes and stays within the budget.
  - Module `PacketBufferProofs` proves that push, pop and flush refine the
    reference queue, and that FIFO order holds across growth.
  - Module `PacketBufferDefects` models three places where the code does not do
    what its header promises.
- **Playback decisions** (`src/player.c`), without the OpenMAX and ffmpeg
  calls.
  - `PlayerFlags`: the flag word, SET_FLAG and UNSET_FLAG, the flags chosen by
    rpi_mp_open, the pause toggle and stop.
  - `Pipeline`: packet routing in process_packet, one pass of the reading
    loop, the loop conditions and one iteration of the decoding threads, and
    the queue flush of rpi_mp_seek.
  - `VideoChunks`: how decode_video_packet splits a packet into decoder
    buffers and chooses each buffer's flags.
  - `AudioChannels`: OUT_CHANNELS and the fall-through channel map.
  - `Timestamps`: the 64-bit timestamp split into two 32-bit words, and its
    recombination.
- **The console** (`src/main.c`), in module `Console`: check_arguments, the
  choice of the media source, the key dispatch of listen_stdin, and the
  HH:MM:SS display.

Each mutex-protected FIFO call and each flag update is treated as atomic.
Every hardware or library result that the code checks is a parameter. That
covers whether init's malloc succeeded, whether the clock call succeeded, the
decoder's `nAllocLen`, the clock's current time and whether a frame read
succeeded. The malloc in FIFO growth is not checked by the code, and the model
takes it to succeed (see "Left out").

## Model

| member | source | states |
|---|---|---|
| PacketBuffer.Init | src/packet_buffer.c:6-21 | Status 1 exactly when allocation fails. Otherwise the buffer is empty and valid, with the given budget, 1000 slots and front and back at slot 0. The byte total is taken as 0; the code as written is modelled separately. |
| PacketBuffer.Grow | src/packet_buffer.c:45-64 | Corrected growth adds 1000 slots and keeps the logical contents. The front moves to slot 0 and the back to slot n. Count, byte total and budget are unchanged. |
| PacketBuffer.Push | src/packet_buffer.c:34-76 | Refused exactly when total + size would exceed the budget, which also rules out growth. Otherwise the packet is appended to the logical contents, n goes up by 1 and the total by the packet's size. Without growth, back advances by one modulo capacity. With growth, capacity goes up by 1000, front is 0 and back is n + 1. |
| PacketBuffer.PushCode | include/rpi_mp_packet_buffer.h:4-8 | The integer status of push is non-zero exactly on refusal, and then it is FULL_BUFFER. |
| PacketBuffer.PushCodeReportsBudget | src/packet_buffer.c:39-43 | Push reports FULL_BUFFER exactly when total + size exceeds the budget, and reports 0 exactly when the packet was appended to the contents. |
| PacketBuffer.Pop | src/packet_buffer.c:79-100 | Needs only the ring shape and a byte total that counts the front packet, so it also applies to rings whose total has drifted. Empty exactly when n is 0. Otherwise it yields the front packet, and that packet followed by the remaining contents is the old contents. n drops by 1, the total drops by the packet's size, front advances modulo capacity, back and budget stay, and the ring shape is kept. |
| PacketBuffer.CoveredFrontCounted | src/packet_buffer.c:79-100 | A ring whose total is at least its queued bytes counts its front packet, so pop's unsigned subtraction cannot wrap. |
| PacketBuffer.PopKeepsValid | src/packet_buffer.c:79-100 | A pop from a buffer with the accounting invariant keeps it. |
| PacketBuffer.PopKeeps | src/packet_buffer.c:79-100 | Pop keeps "total at least the queued bytes", and keeps Valid. The excess of the total over the queued bytes is unchanged by a pop. |
| PacketBuffer.PopUntilEmpty | src/packet_buffer.c:79-100 | Popping until empty leaves an empty ring with the same budget, whose total is the old total minus the old queued bytes. |
| PacketBuffer.Flush | src/packet_buffer.c:103-118 | The buffer is left valid and empty, with total 0, front = back = slot 0, and budget and capacity unchanged. |
| PacketBuffer.FlushBuffer | src/packet_buffer.c:103-118 | The front-to-back walk releases exactly the logical contents, each packet once and in order. This relies on n < capacity. The buffer is then reset. |
| PacketBuffer.DestroyBuffer | src/packet_buffer.c:24-31 | Destroy flushes (releasing the contents), leaves an empty valid buffer with budget 0, and afterwards refuses every packet with any bytes. |
| PacketBufferProofs.PushKeepsValid | src/packet_buffer.c:34-76 | An accepted push into a buffer with the accounting invariant keeps it. |
| PacketBufferProofs.PushRefines | src/packet_buffer.c:34-76 | Push refuses exactly when the reference Enqueue refuses. Otherwise it keeps Valid, and its abstraction is Enqueue's result. |
| PacketBufferProofs.PopRefines | src/packet_buffer.c:79-100 | Pop is empty exactly when Dequeue has nothing. Otherwise it keeps Valid and returns Dequeue's packet and queue. |
| PacketBufferProofs.FlushRefines | src/packet_buffer.c:103-118 | Flush keeps Valid and its abstraction is the cleared queue. |
| PacketBufferProofs.PushUpToBudget | src/packet_buffer.c:39-43 | A push that lands exactly on the budget is accepted. |
| PacketBufferProofs.GrowthExactlyAtLastSlot | src/packet_buffer.c:45-64 | Capacity changes exactly when n == capacity - 1, and afterwards n < capacity again. |
| PacketBufferProofs.PushAllAccepted | include/rpi_mp_packet_buffer.h:48-59 | Packets whose bytes fit in the remaining budget are all accepted and appended in order. |
| PacketBufferProofs.PopAllIsContents | include/rpi_mp_packet_buffer.h:61-72 | Popping until empty returns the logical contents, front first, also on a ring whose total counts more bytes than are queued. |
| PacketBufferProofs.FifoOrder | include/rpi_mp_packet_buffer.h:10-23 | Packets pushed into an empty buffer come out of pop in push order, however many growth steps occur in between. |
| PacketBufferProofs.PushAfterFlush | src/packet_buffer.c:103-118 | After a flush, any packet no larger than the budget is accepted and becomes the only queued packet. |
| PacketBufferProofs.BudgetScenario | src/packet_buffer.c:34-100 | With budget 100: 60 bytes are accepted and 50 more are refused. Pop returns the 60-byte packet with total 0, and then 50 bytes are accepted. |
| PacketBufferProofs.BudgetCheckCannotWrap | src/packet_buffer.c:39 | The 32-bit unsigned budget comparison agrees with the unbounded one while the budget and the packet size are below 2^31. |
| PacketBufferDefects.GrowAsWritten | src/packet_buffer.c:45-64 | Growth as written still rebases correctly (front 0, back n, 1000 more slots), but it copies n - 1 slots in the contiguous layout. |
| PacketBufferDefects.PushAsWritten | src/packet_buffer.c:34-76 | Push as written has the same refusal condition and count and total updates as the corrected push. |
| PacketBufferDefects.WrappedGrowthAsWrittenIsCorrect | src/packet_buffer.c:53-58 | In the wrapped layout, growth as written equals corrected growth and keeps the contents. |
| PacketBufferDefects.PushAsWrittenAgrees | src/packet_buffer.c:34-76 | Every push that does not hit contiguous growth behaves exactly as corrected. |
| PacketBufferDefects.ContiguousGrowthLosesNewest | src/packet_buffer.c:51-52 | In the contiguous layout, growth as written replaces the newest queued packet with a zero packet. |
| PacketBufferDefects.ContiguousGrowthDropsPacket | src/packet_buffer.c:51-69 | The push that triggers contiguous growth leaves the contents as "all but the newest, then a zero packet, then p". The zero packet sits where the newest packet was. The total still counts the lost packet, so when that packet had bytes the contents differ from "old contents then p" and Valid fails. |
| PacketBufferDefects.PushAllAsWrittenAgrees | src/packet_buffer.c:45 | Pushes that never reach the last free slot behave as corrected. |
| PacketBufferDefects.ReachContiguousGrowth | src/packet_buffer.c:45-51 | 999 pushes into a fresh buffer leave one free slot, front at slot 0 and front < back. |
| PacketBufferDefects.ThousandthPushLosesPacket | src/packet_buffer.c:45-69 | After 999 pushes and a 1000th, the 999th packet reads back as a zero packet. The contents differ from what was pushed and the invariant is broken. |
| PacketBufferDefects.PushAsWrittenKeepsCovered | src/packet_buffer.c:34-76 | Push as written, growth defect included, keeps the byte total at least the queued bytes. With PopKeeps, every ring the code can build is one pop applies to. |
| PacketBufferDefects.LostBytesOutliveDrain | src/packet_buffer.c:45-100 | After the 1000th push as written, popping everything still leaves the lost packet's bytes in the total. That drained buffer refuses a packet the size of the whole budget, which a fresh buffer accepts. |
| PacketBufferDefects.LeakAfterGrowth | src/packet_buffer.c:45-100 | The same leak stated on the push that triggers contiguous growth, from any valid buffer at its last free slot. |
| PacketBufferDefects.LastPushAsWritten | src/packet_buffer.c:34-69 | Pushing 1000 packets as written into a fresh buffer equals 999 correct pushes, which reach a valid buffer holding exactly those packets with one free slot in the contiguous layout, followed by one push as written. |
| PacketBufferDefects.EmptyPopReportsSuccess | include/rpi_mp_packet_buffer.h:4-8 | As written, pop on an empty buffer and pop on a non-empty buffer return the same code, 0. |
| PacketBufferDefects.PopCodeAsWritten | src/packet_buffer.c:82-88 | The status as written is 0 for every pop, empty or not, because EMPTY_BUFFER is 0. |
| PacketBufferDefects.PopCode | include/rpi_mp_packet_buffer.h:61-72 | Corrected status: non-zero exactly when the buffer was empty. |
| PacketBufferDefects.InitAsWritten | src/packet_buffer.c:6-21 | Init as written: status 1 exactly on allocation failure. Otherwise the buffer has an empty ring and a byte total that is whatever the struct held before. |
| PacketBufferDefects.InitAsWrittenValidIff | src/packet_buffer.c:6-21 | Init as written gives a valid buffer exactly when the stale total is 0, and then agrees with the corrected Init. |
| PacketBufferDefects.StaleTotalRefusesPackets | src/packet_buffer.c:39 | With a stale total, an empty buffer refuses a packet that fits in its budget, while a correctly initialised one accepts it. |
| PlayerFlags.SetFlag | src/player.c:54 | The named bits become set and no other bit changes. |
| PlayerFlags.UnsetFlag | src/player.c:55 | The named bits become clear and no other bit changes. |
| PlayerFlags.OpenFlags | src/player.c:1166-1169 | FIRST_VIDEO and FIRST_AUDIO are set. RENDER_2_TEXTURE is set exactly when open bit 0x1 is given, and ANALOG_AUDIO_OUT exactly when bit 0x2 is given. No other bit is set, so the player starts neither stopped, paused nor done reading. |
| PlayerFlags.Pause | src/player.c:1307-1349 | The scale is 1<<16 when resuming and 0 when pausing. A failed clock call changes nothing. Otherwise PAUSED is toggled, no other bit changes, and waiters are woken exactly on resume. |
| PlayerFlags.PauseResumeRestores | src/player.c:1307-1349 | Pause then resume restores the flags, freezing the clock and then releasing it and waking waiters. |
| PlayerFlags.PauseTwiceRestores | src/player.c:1307-1349 | Two successful pause calls restore the flags from any state. |
| PlayerFlags.Stop | src/player.c:1291-1304 | STOPPED is set and no bit other than PAUSED changes. A paused pipeline is resumed and woken when the clock call succeeds. If that call fails, it stays paused. |
| PlayerFlags.PauseKeepsStopped | src/player.c:1307-1349 | No pause or resume clears STOPPED. |
| PlayerFlags.StopIdempotent | src/player.c:1291-1304 | Stop on a stopped, unpaused pipeline changes nothing. |
| Pipeline.Route | src/player.c:499-516 | Negative sizes and foreign streams go to no queue. The video index selects the video queue, and the audio index selects the audio queue only when it differs from the video index. |
| Pipeline.ProcessPacket | src/player.c:499-531 | The result code is always 0, and at most one queue changes. A refused push leaves both queues unchanged. A changed queue is the one routing chose, with the packet appended. With STOPPED set or no queue chosen, nothing changes. A retry happens exactly when not stopped and the chosen queue's budget would be exceeded. When not stopped and the packet fits, it is accepted: it is appended to the chosen queue, whose total grows by its size, the other queue is unchanged, and the result is 0. Both budgets are kept, and so is the accounting invariant of both queues. |
| Pipeline.ReaderStepOf | src/player.c:1270-1274 | One pass of the reading loop leaves the loop exactly when STOPPED is set or the read failed. A refused push keeps the reader inside process_packet with both queues unchanged. Going on to the next packet, each queue is either unchanged or has the packet appended. The reader retries exactly when the routed queue's budget would be exceeded. A packet that fits is appended to its queue with the other queue unchanged, and a packet routed nowhere leaves both queues as they were. |
| Pipeline.ReaderNeverBreaksOnProcessResult | src/player.c:1270-1274 | The reading loop's break on a non-zero process_packet result is never taken. While the loop condition holds, a pass either goes on to the next packet or retries the push. |
| Pipeline.ConsumerGuardsAgree | src/player.c:459-463 | The audio thread's loop condition plus its early break equal the video thread's loop condition. Both run exactly while STOPPED is clear and not (DONE_READING and queue empty). |
| Pipeline.VideoLoopContinues | src/player.c:270 | The video thread's loop condition: STOPPED clear, and DONE_READING clear or a packet queued. |
| Pipeline.AudioLoopContinues | src/player.c:459-463 | The audio thread's loop condition with the DONE_READING-and-empty break at the top of its body. |
| Pipeline.DoneReadingEndsEmptyConsumer | src/player.c:270 | Once DONE_READING is set, a decoding thread with an empty queue leaves its loop. |
| Pipeline.ConsumerStepOf | src/player.c:270-292 | The iteration with pop's status as documented. It exits exactly when the loop condition fails and backs off exactly on an empty queue. Otherwise it decodes the front packet, the rest stays queued, the total drops by the packet's size, the budget stays and the accounting invariant is kept. |
| Pipeline.SeekQueues | src/player.c:1037-1065 | When the clock stop succeeds, seek leaves both queues valid and empty. When it fails, seek returns at once with both queues unchanged. Both budgets are kept. |
| Pipeline.SeekThenReadRestarts | src/player.c:1064-1065 | After a seek that flushed the queues, the next video packet within the budget becomes the only queued video packet, and the audio queue is empty. |
| Pipeline.ConsumerStepAsWritten | src/player.c:276-289 | With pop's status as written, the exit decision is unchanged and the back-off never happens. A non-empty queue behaves as documented. An empty queue passes the packet variable, as the previous iteration left it, to the decoder, and the queue is unchanged. |
| Pipeline.AsWrittenConsumerNeverBacksOff | src/player.c:276-289 | As written, a decoding thread never takes its back-off branch. It hands its packet variable to the decoder exactly where the documented status would back off. |
| Pipeline.EmptyVideoQueueSpins | src/player.c:170-173 | For the video thread that packet variable has size 0, since av_packet_unref released it (or it is the zeroed static). On an empty queue no chunk is sent and nothing changes, so the thread loops without sleeping. |
| Pipeline.EmptyAudioQueueRefeeds | src/player.c:459-486 | For the audio thread, on an empty queue (when the loop continues) the decoder gets the packet variable again. After a negative decoding result that packet still holds its bytes, because the unref is skipped. |
| Pipeline.DrainAfterDoneReading | src/player.c:270-292 | After DONE_READING, and while not stopped, a decoding thread decodes exactly the queued packets, in queue order, and then stops. |
| Pipeline.StoppedDrainsNothing | src/player.c:270 | With STOPPED set, nothing more is decoded. |
| Timestamps.ToTicks | src/player.c:108-114 | Both words of the split are unsigned 32-bit values. |
| Timestamps.TicksValue | src/player.c:1031 | The recombined value is an unsigned 64-bit value whose low and high 32-bit halves are the two words. |
| Timestamps.TicksRoundTrip | src/player.c:108-114 | Split then recombine gives x mod 2^64. That is x for 0 <= x < 2^63, and x + 2^64 for negative x. |
| Timestamps.TicksZeroIff | src/player.c:196 | Both words are zero exactly when the timestamp is 0. |
| Timestamps.CurrentTime | src/player.c:1017-1033 | The result is 0 when the clock query fails. Otherwise it is the whole number of seconds in the recombined microsecond value. |
| Timestamps.CurrentTimeOfTimestamp | src/player.c:1031-1032 | For a non-negative media time x, the reported seconds are x / 10^6, rounded down. |
| VideoChunks.SplitChunks | src/player.c:173-201 | The chunks carry exactly the packet's bytes, and there are none exactly when the packet is empty. |
| VideoChunks.SplitPacket | src/player.c:170-201 | The chunks carry exactly the packet's bytes. An empty packet sends nothing and leaves the flag word as it was. Otherwise FIRST_VIDEO is clear afterwards, and that is the only change the chunk loop modelled here makes to the flag word. The port-settings handshake can also set PORT_SETTINGS_CHANGED, which is left out. |
| VideoChunks.ChunkSizes | src/player.c:180-188 | Each chunk holds 1 to nAllocLen bytes, and every chunk but the last is full. |
| VideoChunks.ChunkFlags | src/player.c:190-201 | ENDOFFRAME is on the last chunk only. STARTTIME is on the first chunk exactly when FIRST_VIDEO was set, and on no chunk otherwise. TIME_UNKNOWN is on exactly the chunks without STARTTIME when the timestamp is zero. |
| VideoChunks.ChunkCount | src/player.c:176-186 | The number of chunks is the packet size divided by nAllocLen, rounded up. |
| VideoChunks.StartTimeOnlyOnce | src/player.c:191-195 | After a packet with bytes, no chunk of a later packet carries STARTTIME. |
| VideoChunks.FirstVideoClear | src/player.c:190-195 | While FIRST_VIDEO is clear, no chunk of a packet carries STARTTIME. |
| VideoChunks.TimeUnknownMeansZeroTime | src/player.c:196-197 | For a timestamp built from media time x, TIME_UNKNOWN marks the chunks without STARTTIME exactly when x is 0. |
| AudioChannels.OutChannels | src/player.c:52 | For 1 to 8 channels the result is the least power of two not below the count. Above 8 channels it is 8, and counts of 0 or less pass through. |
| AudioChannels.ChannelMap | src/player.c:844-871 | Mono maps slot 0 to CF. For 2 to 8 channels, the first n slots are the first n entries of LF, RF, CF, LFE, LR, RR, LS, RS and the rest are untouched. Any other count leaves the map unchanged. |
| AudioChannels.MappedChannelsAreNamed | src/player.c:819-871 | For 1 to 8 channels, every stream channel is assigned a speaker, and the output channel count is at least the stream's. |
| Console.CheckArguments | src/main.c:362-380 | Status 1 exactly when there are fewer than two arguments, with flags 0. Otherwise status 0, with RENDER_VIDEO_TO_TEXTURE set exactly when "texture" occurs and ANALOG_AUDIO exactly when "analog-audio" occurs, argv[0] included. No other bit is ever set. |
| Console.FlagsIgnoreOrderAndRepetition | src/main.c:373-379 | Argument lists with the same members give the same flags, whatever the order or repetition. |
| Console.KeywordFlagsExact | src/main.c:373-379 | Each keyword bit is set exactly when its keyword occurs, and no other bit is set. |
| Console.MediaSource | src/main.c:391 | The media opened is the last argument. |
| Console.KeywordsAreNotExcludedFromRoles | src/main.c:362-391 | A keyword in last position is both the media source and a flag. A program named "texture" renders to a texture. |
| Console.KeyDispatch | src/main.c:119-162 | Only 's' and 'q' end the loop, and only 's' stops playback. Only ' ' pauses. Only 'n' and 'p' seek, to a signed 64-bit position. Only 't' shows the time, and it shows Clock of the current time. Only 'a' shows the title. Only the newline skips the prompt. |
| Console.SeekTargets | src/main.c:135-141 | For any time the clock can report, 'n' seeks to now + 180 and 'p' to now - 60. The latter is negative within the first minute. |
| Console.QuitLeavesPlaybackRunning | src/main.c:126-133 | 'q' ends the console loop without stopping playback, and 's' stops it. |
| Console.Clock | src/main.c:143-146 | The display always has minutes below 60. For 0 <= t < 2^31 it splits the time exactly: h*3600 + m*60 + s = t, with h >= 0 and 0 <= s < 60. |
| Console.ClockHoursWrapNegative | src/main.c:143-146 | For 2^31 <= t < 2^32 the `(int)` cast makes the seconds shown 0 or negative, and the hours negative once t <= 2^32 - 3600. |

## Left out

- OpenMAX IL and ilclient: component creation, tunnels, ports, the clock set-up and the decoder flush in stop. Only the success of the clock call is modelled, as a boolean.
- The port-settings handshake inside decode_video_packet, and the per-chunk failures to get a decoder buffer. These are hardware events. The handshake sets PORT_SETTINGS_CHANGED (src/player.c:208), which SplitPacket's flag results leave out. It returns 1 when one of its OMX calls fails, which the video thread treats as a decoding error.
- ffmpeg demuxing and decoding, audio decoding (decode_audio_packet, hardwaredecode_audio_packet) and the planar-to-interleaved sample shuffle. These are library calls over data the model does not see.
- Threads, mutexes, condition variables and sleeps. Each FIFO call and flag update is treated as atomic.
- Concurrency hazards, which a sequential model cannot show. They are noted in the Pipeline module's comment: WAIT_WHILE_PAUSED does not re-check PAUSED, the decoding threads read `n_packets` without the lock, and rpi_mp_seek returns on its error paths without releasing the decoding locks.
- rpi_mp_seek, apart from its queues: seek flushes both packet FIFOs with PacketBuffer.Flush's effect, unless stopping the clock fails first (src/player.c:1055). SeekQueues models that part. The rest is floating-point clock arithmetic and ffmpeg/OpenMAX calls. Re-arming FIRST_VIDEO/FIRST_AUDIO on seek is commented out in the source, so it is not behaviour.
- Floating point: the stream-time-base scaling of timestamps, the seek clock time, sample conversion and the GL projection. Timestamps start from the integer the scaling produces.
- EGL, GLES and dispmanx set-up and drawing, the stdin read loop, printing, and metadata lookup. Keys are modelled by the action they select.
- Releasing packet data (av_packet_unref) and the slot array (free). Flush returns the released packets instead, and its slot values are left as they were because no operation reads outside the live window.
- Growth's malloc (src/packet_buffer.c:48-49) is not checked in the code, which memsets the result at once. The model takes this allocation to succeed, and has no state for a failed one.
- VideoChunks.SplitChunks: requires nAllocLen > 0. With a zero nAllocLen the code's chunk loop (src/player.c:173-188) never shrinks the packet and never ends.
- PacketBuffer.Pop: requires that the total count the front packet, which keeps the code's unsigned subtraction from wrapping. It does not promise the wrapped value for rings outside that. Every ring the code builds meets the requirement (PushAsWrittenKeepsCovered, PopKeeps).
- PacketBuffer.Push: the 32-bit unsigned width of `size`, `size_packets` and `capacity` is not modelled in the contract. BudgetCheckCannotWrap shows the comparison cannot wrap in the ranges the player uses (a 5 MiB budget and packet sizes below 2^31).
- Pipeline.ProcessPacket: the wait while PAUSED inside the retry loop is not modelled. A retry is a further call with the flags as they then are.
- The title shown by 'a' is a metadata lookup outside the model; KeyDispatch fixes only that 'a' selects ShowTitle.
- Console.Clock: the exact split is stated for t < 2^31 only. Beyond that the `(int)` cast makes the display negative (ClockHoursWrapNegative), which needs a clock time of about 68 years.

## Findings

| source | as written | input that shows it | evidently intended | confidence | as-written member | corrected member |
|---|---|---|---|---|---|---|
| src/packet_buffer.c:51-52 | In the contiguous layout (front < back), growth copies `n_packets - 1` slots. | Into a fresh buffer with a large budget, push 999 packets of positive size with no pop, then push a 1000th. The 999th packet reads back as a zeroed slot, while `size_packets` still counts its bytes. | Copy all `n_packets` slots, as the wrapped branch does. | high, not executed | PacketBufferDefects.ThousandthPushLosesPacket | PacketBufferProofs.FifoOrder |
| include/rpi_mp_packet_buffer.h:4-8 | `EMPTY_BUFFER` is the first enumerator, so it is 0, and pop on an empty buffer returns 0, the same code as success. The decoding threads therefore never sleep on an empty queue: they pass their packet variable to the decoder again. For video that packet has size 0, so nothing is sent and the thread spins. For audio it still holds its bytes after a negative decoding result. | Pop from any empty buffer, for example a freshly initialised one: the result is 0. | A non-zero code on an empty buffer, as the header documents. | high, not executed | PacketBufferDefects.EmptyPopReportsSuccess | PacketBufferDefects.PopCode |
| src/packet_buffer.c:6-21 | init never assigns `size_packets`; the buffer keeps whatever total the struct held. The player's buffers are zero-initialised statics, and destroy flushes (which zeroes the total), so the player itself does not hit this. | Init a struct whose `size_packets` holds the budget; every packet with any bytes is refused although the buffer is empty. | Set `size_packets` to 0 in init. | medium, not executed | PacketBufferDefects.StaleTotalRefusesPackets | PacketBuffer.Init |

=== FILE: audio_channels.dfy ===
/** The audio renderer's channel set-up in open_audio (src/player.c): the
    number of output channels requested for a stream's channel count, and
    the speaker assignment written into the PCM channel map by a switch
    whose cases fall through. */
module AudioChannels {

  /** The speaker positions the map uses; ChannelNone stands for whatever
      the map held before. */
  datatype Channel = ChannelNone | LF | RF | CF | LS | RS | LFE | CS | LR | RR

  /** OUT_CHANNELS: 8 above 4 channels, 4 for 3 or 4, the count itself
      otherwise. For 1 to 8 channels this is the least power of two not
      below the count; more than 8 channels are mixed into 8. */
  function OutChannels(n: int): (r: int)
    ensures 1 <= n <= 8 ==> (r == 1 || r == 2 || r == 4 || r == 8) && n <= r && (r == 1 || r / 2 < n)
    ensures n > 8 ==> r == 8
    ensures n <= 0 ==> r == n
  {
    if n > 4 then 8 else if n > 2 then 4 else n
  }

  /** The standard order the map follows: the first n speakers for an
      n-channel stream. */
  const Layout: seq<Channel> := [LF, RF, CF, LFE, LR, RR, LS, RS]

  /** The channel map for a stream of `entry` channels, starting from the
      map `m` the PCM parameters held: the switch entered at case `entry`.
      Each case writes its entries and falls into the next case below it
      (a recursive call), except that cases 1 and 3 end with a break and
      case 4 falls into case 2. */
  function ChannelMap(entry: int, m: seq<Channel>): (r: seq<Channel>)
    requires |m| >= 8
    ensures |r| == |m|
    ensures entry == 1 ==> r == m[0 := CF]
    ensures 2 <= entry <= 8 ==>
              && (forall i :: 0 <= i < entry ==> r[i] == Layout[i])
              && (forall i :: entry <= i < |m| ==> r[i] == m[i])
    ensures (entry < 1 || entry > 8) ==> r == m
    decreases entry
  {
    if entry == 8 then ChannelMap(7, m[7 := RS])
    else if entry == 7 then ChannelMap(6, m[6 := LS])
    else if entry == 6 then ChannelMap(5, m[5 := RR])
    else if entry == 5 then ChannelMap(4, m[4 := LR])
    else if entry == 4 then ChannelMap(2, m[3 := LFE][2 := CF])
    else if entry == 3 then m[2 := CF][1 := RF][0 := LF]
    else if entry == 2 then m[1 := RF][0 := LF]
    else if entry == 1 then m[0 := CF]
    else m
  }

  /** Every speaker the renderer is told about is named by the map: for 1
      to 8 channels, the output count rounds the stream's count up, and the
      map names a speaker for each of the stream's channels. */
  lemma MappedChannelsAreNamed(channels: int, m: seq<Channel>)
    requires |m| >= 8 && 1 <= channels <= 8
    ensures forall i :: 0 <= i < channels ==> ChannelMap(channels, m)[i] != ChannelNone
    ensures channels <= OutChannels(channels)
  {
  }
}

=== FILE: console.dfy ===
/** The command-line front end in src/main.c: argument checking and the
    open flags it derives, the choice of media source, the key dispatch of
    the console thread and the HH:MM:SS display of the current time. The
    reading of stdin, the printing and the calls into the player are
    outside the model; a key's effect is described by the action it
    selects. */
module Console {
  import opened PlayerFlags
  import opened Timestamps

  /** The open flags named by keyword arguments anywhere in the list,
      the program name included: the declarative description of the scan
      in check_arguments. */
  function KeywordFlags(args: seq<string>): (f: bv32)
  {
    (if "texture" in args then RenderVideoToTexture else 0)
    | (if "analog-audio" in args then AnalogAudio else 0)
  }

  /** check_arguments: status 1 (usage) when fewer than two arguments are
      given, otherwise 0; the flags are cleared first and then collect
      RENDER_VIDEO_TO_TEXTURE for every "texture" and ANALOG_AUDIO for
      every "analog-audio", scanning from argv[0]. */
  method CheckArguments(args: seq<string>) returns (code: int, flags: bv32)
    ensures code == 1 <==> |args| < 2
    ensures code == 0 <==> |args| >= 2
    ensures |args| < 2 ==> flags == 0
    ensures |args| >= 2 ==> flags == KeywordFlags(args)
    ensures flags & !(RenderVideoToTexture | AnalogAudio) == 0
    ensures flags & RenderVideoToTexture != 0 <==> |args| >= 2 && "texture" in args
    ensures flags & AnalogAudio != 0 <==> |args| >= 2 && "analog-audio" in args
  {
    flags := 0;
    if |args| < 2 {
      return 1, flags;
    }
    var i := 0;
    while i < |args|
      invariant 0 <= i <= |args|
      invariant flags == KeywordFlags(args[..i])
      decreases |args| - i
    {
      assert args[..i + 1] == args[..i] + [args[i]];
      if args[i] == "texture" {
        flags := flags | RenderVideoToTexture;
      } else if args[i] == "analog-audio" {
        flags := flags | AnalogAudio;
      }
      i := i + 1;
    }
    assert args[..i] == args;
    code := 0;
  }

  /** The flags depend only on which arguments occur, not on their order
      or on how often each is repeated. */
  lemma FlagsIgnoreOrderAndRepetition(a: seq<string>, b: seq<string>)
    requires forall s :: s in a <==> s in b
    ensures KeywordFlags(a) == KeywordFlags(b)
  {
  }

  /** Each keyword bit is set exactly when its keyword occurs, and no other
      bit is ever set. */
  lemma KeywordFlagsExact(args: seq<string>)
    ensures KeywordFlags(args) & RenderVideoToTexture != 0 <==> "texture" in args
    ensures KeywordFlags(args) & AnalogAudio != 0 <==> "analog-audio" in args
    ensures KeywordFlags(args) & !(RenderVideoToTexture | AnalogAudio) == 0
  {
  }

  /** The media source main passes to the player: the last argument,
      whatever it is. Taking `argv[argc - 1]` is all main does to choose
      it; KeywordsAreNotExcludedFromRoles shows what that implies. */
  function MediaSource(args: seq<string>): (source: string)
    requires |args| >= 2
    ensures source in args
    ensures source == args[|args| - 1]
  {
    args[|args| - 1]
  }

  /** The last argument is taken as the source even when it is a keyword,
      and then also acts as one; and a program invoked under the name
      "texture" renders to a texture, because the scan includes argv[0]. */
  lemma KeywordsAreNotExcludedFromRoles()
    ensures MediaSource(["player", "texture"]) == "texture"
    ensures KeywordFlags(["player", "texture"]) == RenderVideoToTexture
    ensures KeywordFlags(["texture", "movie.mkv"]) == RenderVideoToTexture
  {
    assert "texture" in ["player", "texture"];
    assert "analog-audio" !in ["player", "texture"];
    assert "texture" in ["texture", "movie.mkv"];
    assert "analog-audio" !in ["texture", "movie.mkv"];
  }

  // ---------------------------------------------------------------------
  // Key dispatch

  /** What a key asks the player to do. */
  datatype Action =
    | TogglePause
    | StopPlayback
    | NoAction
    | SeekTo(position: int)
    | ShowTime(hours: int, minutes: int, seconds: int)
    | ShowTitle

  /** One pass of listen_stdin's loop: the action, whether `done` is set,
      and whether the ">> " prompt is printed again. */
  datatype KeyStep = KeyStep(action: Action, done: bool, prompt: bool)

  /** Reinterpreting an unsigned 64-bit value as `int64_t`. */
  function ToInt64(u: int): (x: int)
    requires 0 <= u < TwoTo64
    ensures IsInt64(x) && (x - u) % TwoTo64 == 0
  {
    if u >= TwoTo63 then u - TwoTo64 else u
  }

  /** A signed 32-bit cast of an unsigned value: its low 32 bits, read in
      two's complement. */
  function ToInt32(u: int): (x: int)
    requires 0 <= u
    ensures -TwoTo31 <= x < TwoTo31 && (x - u) % TwoTo32 == 0
  {
    var w := u % TwoTo32;
    if w >= TwoTo31 then w - TwoTo32 else w
  }

  /** C's `/` on int: the quotient truncated toward zero. */
  function CDiv(a: int, b: int): (q: int)
    requires b > 0
    ensures a >= 0 ==> q == a / b
    ensures a < 0 ==> q == -((-a) / b)
  {
    if a >= 0 then a / b else -((-a) / b)
  }

  /** C's `%` on int: the remainder takes the sign of the dividend. */
  function CRem(a: int, b: int): (r: int)
    requires b > 0
    ensures CDiv(a, b) * b + r == a
  {
    a - CDiv(a, b) * b
  }

  /** The 't' key's display of a time `t` in seconds (an unsigned 64-bit
      value): hours `(int) t / 3600`, minutes `(int) (t % 3600) / 60`,
      seconds `(int) t % 60`. */
  function Clock(t: int): (r: Action)
    requires 0 <= t < TwoTo64
    ensures r.ShowTime? && 0 <= r.minutes < 60
    ensures t < TwoTo31 ==>
              && r.hours * 3600 + r.minutes * 60 + r.seconds == t
              && 0 <= r.hours && 0 <= r.seconds < 60
  {
    var shown := ShowTime(CDiv(ToInt32(t), 3600), (t % 3600) / 60, CRem(ToInt32(t), 60));
    if t < TwoTo31 then
      DivModOf(0, t, TwoTo32);
      SixtyDivides(t);
      shown
    else shown
  }

  /** From 2^31 seconds on, the `(int)` cast reads the time as negative:
      the hours shown are negative once the cast value is at least an hour
      below zero, and the seconds are never positive. */
  lemma ClockHoursWrapNegative(t: int)
    requires TwoTo31 <= t < TwoTo32
    ensures Clock(t).seconds <= 0
    ensures t <= TwoTo32 - 3600 ==> Clock(t).hours < 0
  {
    DivModOf(0, t, TwoTo32);
    assert ToInt32(t) == t - TwoTo32;
  }

  /** Seconds modulo 60 equal the seconds within the hour modulo 60. */
  lemma SixtyDivides(t: int)
    requires 0 <= t
    ensures (t / 3600) * 3600 + ((t % 3600) / 60) * 60 + t % 60 == t
  {
    var h := t / 3600;
    var m := (t % 3600) / 60;
    var s := (t % 3600) % 60;
    assert t == h * 3600 + m * 60 + s;
    assert h * 3600 + m * 60 == (h * 60 + m) * 60;
    DivModOf(h * 60 + m, s, 60);
  }

  /** One key read by listen_stdin with the player's current time `now`
      (seconds, unsigned 64-bit). ' ' toggles pause, 's' stops and ends
      the loop, 'q' ends the loop without stopping, 'n' and 'p' seek 180
      seconds forward and 60 back in unsigned 64-bit arithmetic passed as
      `int64_t`, 't' shows the time, 'a' the stream title, a newline is
      skipped without a new prompt, and any other key prints a blank
      line. */
  function KeyDispatch(c: char, now: int): (r: KeyStep)
    requires 0 <= now < TwoTo64
    ensures r.done <==> c == 's' || c == 'q'
    ensures r.prompt <==> c != '\n'
    ensures r.action.StopPlayback? <==> c == 's'
    ensures r.action.TogglePause? <==> c == ' '
    ensures r.action.SeekTo? <==> c == 'n' || c == 'p'
    ensures r.action.SeekTo? ==> IsInt64(r.action.position)
    ensures r.action.ShowTime? <==> c == 't'
    ensures c == 't' ==> r.action == Clock(now)
    ensures r.action.ShowTitle? <==> c == 'a'
  {
    match c
    case ' ' => KeyStep(TogglePause, false, true)
    case 's' => KeyStep(StopPlayback, true, true)
    case 'q' => KeyStep(NoAction, true, true)
    case 'n' => KeyStep(SeekTo(ToInt64((now + 180) % TwoTo64)), false, true)
    case 'p' => KeyStep(SeekTo(ToInt64((now - 60) % TwoTo64)), false, true)
    case 't' => KeyStep(Clock(now), false, true)
    case 'a' => KeyStep(ShowTitle, false, true)
    case '\n' => KeyStep(NoAction, false, false)
    case _ => KeyStep(NoAction, false, true)
  }

  /** Seeking forward asks for the current time plus 180 seconds, and
      seeking back for the current time minus 60, negative within the first
      minute; the unsigned arithmetic wraps only for times no clock
      reports (the player's time is at most 2^64 / 10^6 seconds). */
  lemma SeekTargets(now: int)
    requires 0 <= now && now * AvTimeBase < TwoTo64
    ensures KeyDispatch('n', now).action == SeekTo(now + 180)
    ensures KeyDispatch('p', now).action == SeekTo(now - 60)
  {
    DivModOf(0, now + 180, TwoTo64);
    if now >= 60 {
      DivModOf(0, now - 60, TwoTo64);
    } else {
      DivModOf(-1, now - 60 + TwoTo64, TwoTo64);
    }
  }

  /** The keys that end the console loop: only 's' stops the player on the
      way out. */
  lemma QuitLeavesPlaybackRunning(now: int)
    requires 0 <= now < TwoTo64
    ensures KeyDispatch('q', now).done && !KeyDispatch('q', now).action.StopPlayback?
    ensures KeyDispatch('s', now).done && KeyDispatch('s', now).action.StopPlayback?
  {
  }
}

=== FILE: fifo.dfy ===
/** The reference behaviour the packet ring buffer is meant to implement:
    an ordinary first-in first-out queue of packets with a ceiling on the
    number of bytes it may hold. It knows nothing about slots, indices or
    growth; the ring buffer in module PacketBuffer is proved to refine it. */
module Fifo {

  /** A demultiplexed packet as far as the queue is concerned: an identity
      (standing for the payload and timestamps, which the queue never looks
      at) and its size in bytes. Only packets of non-negative size ever reach
      a queue, so the size is a natural number. */
  datatype Packet = Packet(id: nat, size: nat)

  /** Total number of bytes held by a sequence of packets. */
  function Bytes(ps: seq<Packet>): nat
  {
    if |ps| == 0 then 0 else Bytes(ps[..|ps| - 1]) + ps[|ps| - 1].size
  }

  lemma {:induction false} BytesAppend(a: seq<Packet>, b: seq<Packet>)
    ensures Bytes(a + b) == Bytes(a) + Bytes(b)
    decreases |b|
  {
    if |b| == 0 {
      assert a + b == a;
    } else {
      var b' := b[..|b| - 1];
      assert (a + b)[..|a + b| - 1] == a + b';
      BytesAppend(a, b');
    }
  }

  /** Removing the first packet removes exactly its bytes. */
  lemma BytesFront(ps: seq<Packet>)
    requires |ps| > 0
    ensures Bytes(ps) == ps[0].size + Bytes(ps[1..])
    ensures ps[0].size <= Bytes(ps)
  {
    assert ps == [ps[0]] + ps[1..];
    BytesAppend([ps[0]], ps[1..]);
    assert [ps[0]][..0] == [];
  }

  /** The logical queue: packets in arrival order and the byte ceiling. */
  datatype Queue = Queue(items: seq<Packet>, budget: nat)

  ghost predicate WithinBudget(q: Queue)
  {
    Bytes(q.items) <= q.budget
  }

  datatype Offer = Accepted(queue: Queue) | Rejected

  /** Offer a packet: it is refused, with nothing changed, when it would take
      the queue over its byte ceiling; otherwise it joins the back. */
  function Enqueue(q: Queue, p: Packet): (r: Offer)
    ensures r.Rejected? <==> Bytes(q.items) + p.size > q.budget
    ensures r.Accepted? ==> r.queue.items == q.items + [p] && r.queue.budget == q.budget
    ensures r.Accepted? ==> WithinBudget(r.queue)
  {
    if Bytes(q.items) + p.size > q.budget then Rejected
    else
      BytesAppend(q.items, [p]);
      assert [p][..0] == [];
      Accepted(Queue(q.items + [p], q.budget))
  }

  datatype Take = Took(packet: Packet, queue: Queue) | Nothing

  /** Take the oldest packet, if there is one. */
  function Dequeue(q: Queue): (r: Take)
    ensures r.Nothing? <==> q.items == []
    ensures r.Took? ==> [r.packet] + r.queue.items == q.items && r.queue.budget == q.budget
    ensures r.Took? && WithinBudget(q) ==> WithinBudget(r.queue)
  {
    if q.items == [] then Nothing
    else
      BytesFront(q.items);
      Took(q.items[0], Queue(q.items[1..], q.budget))
  }

  /** Discard everything that is queued. */
  function Clear(q: Queue): (r: Queue)
    ensures r.items == [] && r.budget == q.budget && WithinBudget(r)
  {
    Queue([], q.budget)
  }
}

=== FILE: packet_buffer.dfy ===
/** The bounded packet FIFO of src/packet_buffer.c: a ring of packet slots
    with a front and a back position, a packet count, a running byte total
    and a byte budget. The ring grows by FifoAllocSize slots when only one
    free slot remains.

    Each operation runs under the buffer's mutex in the source; here each is
    one atomic step on an immutable record. Slot positions are indices into
    `slots` where the source keeps pointers into the slot array.

    The growth step here is the CORRECTED one: it copies all queued packets
    in both layouts. The growth exactly as written, which loses a packet in
    the contiguous layout, is in module PacketBufferDefects. */
module PacketBuffer {
  import opened Fifo

  /** Slots allocated at init and added by every growth step. */
  const FifoAllocSize: nat := 1000

  /** A slot as left by memset: an all-zero packet. */
  const ZeroPacket: Packet := Packet(0, 0)

  /** The `packet_buffer` struct. `total` is `size_packets`, `budget` is
      `size`, `n` is `n_packets`, `front`/`back` are `_front`/`_back`. */
  datatype Buffer = Buffer(
    budget: nat,
    capacity: nat,
    n: nat,
    total: nat,
    slots: seq<Packet>,
    front: nat,
    back: nat)

  /** Ring structure: positions inside the slot array, at least one free
      slot, and the back `n` slots after the front. Capacity never drops
      below its initial value, since growth only adds. */
  ghost predicate Shape(b: Buffer)
  {
    && b.capacity >= FifoAllocSize
    && |b.slots| == b.capacity
    && b.front < b.capacity
    && b.n < b.capacity
    && b.back == (b.front + b.n) % b.capacity
  }

  /** The ring buffer's accounting invariant: the byte total is the sum of
      the queued sizes and stays within the budget. */
  ghost predicate Valid(b: Buffer)
  {
    Shape(b) && b.total == Bytes(Contents(b)) && b.total <= b.budget
  }

  /** The weaker invariant every buffer the source can build keeps, the
      as-written growth included: the byte total counts at least the queued
      bytes. Valid is the case where it counts exactly those. */
  ghost predicate Covered(b: Buffer)
  {
    Shape(b) && Bytes(Contents(b)) <= b.total
  }

  /** What pop_packet relies on: the ring structure, and a byte total
      that holds the front packet's bytes, so that the unsigned subtraction
      does not wrap. */
  ghost predicate FrontCounted(b: Buffer)
  {
    Shape(b) && (b.n > 0 ==> b.slots[b.front].size <= b.total)
  }

  /** The logical queue: the `n` slots starting at `front`, wrapping around
      the end of the slot array. */
  function Contents(b: Buffer): (q: seq<Packet>)
    requires Shape(b)
    ensures |q| == b.n
  {
    seq(b.n, i requires 0 <= i < b.n && Shape(b) => b.slots[(b.front + i) % b.capacity])
  }

  /** The abstraction function to the reference FIFO. */
  function Abstract(b: Buffer): Queue
    requires Shape(b)
  {
    Queue(Contents(b), b.budget)
  }

  // ---------------------------------------------------------------------
  // Ring arithmetic

  lemma ModWrap(a: int, m: int)
    requires 0 < m && 0 <= a < 2 * m
    ensures a % m == if a < m then a else a - m
  {
    if a >= m {
      assert a == m + (a - m);
    }
  }

  /** Distinct offsets below the capacity land on distinct slots. */
  lemma RingDistinct(front: nat, i: nat, j: nat, cap: nat)
    requires front < cap && i < j < cap
    ensures (front + i) % cap != (front + j) % cap
  {
    ModWrap(front + i, cap);
    ModWrap(front + j, cap);
  }

  /** The successor position, as the source computes it with a wrap test. */
  function Next(pos: nat, cap: nat): (r: nat)
    requires pos < cap
    ensures r < cap && r == (pos + 1) % cap
  {
    ModWrap(pos + 1, cap);
    if pos + 1 == cap then 0 else pos + 1
  }

  // ---------------------------------------------------------------------
  // init_packet_buffer

  datatype InitResult = InitFailed | Ready(buf: Buffer)

  /** Status code of init: 0 on success, 1 when allocation failed. */
  function InitCode(r: InitResult): int
  {
    if r.InitFailed? then 1 else 0
  }

  /** The empty ring init builds over a freshly zeroed slot array. */
  function Fresh(budget: nat): (b: Buffer)
    ensures Valid(b) && Contents(b) == [] && b.budget == budget
    ensures b.capacity == FifoAllocSize && b.front == 0 && b.back == 0
  {
    Buffer(budget, FifoAllocSize, 0, 0, seq(FifoAllocSize, _ => ZeroPacket), 0, 0)
  }

  /** init_packet_buffer with the byte total set to zero. `allocOk` is
      the success of malloc. The source never assigns the byte total; that
      is modelled in PacketBufferDefects.InitAsWritten. */
  function Init(budget: nat, allocOk: bool): (r: InitResult)
    ensures InitCode(r) == 1 <==> !allocOk
    ensures r.Ready? ==> Valid(r.buf) && Contents(r.buf) == [] && r.buf.budget == budget
    ensures r.Ready? ==> r.buf.capacity == FifoAllocSize && r.buf.front == 0 && r.buf.back == 0
  {
    if !allocOk then InitFailed else Ready(Fresh(budget))
  }

  // ---------------------------------------------------------------------
  // push_packet

  /** The queued packets copied out of the ring in order, as the corrected
      growth does: `n` slots from the front in the contiguous layout (the
      source copies `n - 1`), or the front-to-end segment followed by the
      start-to-back segment in the wrapped layout. */
  function Unwrap(b: Buffer): (live: seq<Packet>)
    requires Shape(b) && b.n == b.capacity - 1
    ensures live == Contents(b)
  {
    ModWrap(b.front + b.n, b.capacity);
    if b.front < b.back then
      UnwrapContiguous(b);
      b.slots[b.front..b.front + b.n]
    else
      UnwrapWrapped(b);
      b.slots[b.front..] + b.slots[..b.n - (b.capacity - b.front)]
  }

  lemma UnwrapContiguous(b: Buffer)
    requires Shape(b) && b.n == b.capacity - 1 && b.front < b.back
    ensures b.front == 0
    ensures b.slots[b.front..b.front + b.n] == Contents(b)
  {
    ModWrap(b.front + b.n, b.capacity);
    var q := Contents(b);
    forall i | 0 <= i < b.n
      ensures q[i] == b.slots[i]
    {
      ModWrap(i, b.capacity);
    }
  }

  lemma UnwrapWrapped(b: Buffer)
    requires Shape(b) && b.n == b.capacity - 1 && b.front >= b.back
    ensures b.front >= 1
    ensures b.slots[b.front..] + b.slots[..b.n - (b.capacity - b.front)] == Contents(b)
  {
    ModWrap(b.front + b.n, b.capacity);
    var k := b.capacity - b.front;
    var live := b.slots[b.front..] + b.slots[..b.n - k];
    var q := Contents(b);
    forall i | 0 <= i < b.n
      ensures live[i] == q[i]
    {
      ModWrap(b.front + i, b.capacity);
      if i < k {
        assert live[i] == b.slots[b.front + i];
      } else {
        assert live[i] == b.slots[i - k];
      }
    }
  }

  /** Growth, corrected: allocate FifoAllocSize more zeroed slots, copy the
      queued packets to the start of the new array in order, and rebase the
      front to slot 0 and the back to slot `n`. */
  function Grow(b: Buffer): (g: Buffer)
    requires Shape(b) && b.n == b.capacity - 1
    ensures Shape(g) && Contents(g) == Contents(b)
    ensures g.capacity == b.capacity + FifoAllocSize
    ensures g.front == 0 && g.back == b.n && g.n == b.n
    ensures g.total == b.total && g.budget == b.budget
  {
    Rebase(b, Unwrap(b))
  }

  /** The buffer over a new array of `capacity + FifoAllocSize` slots that
      starts with `live` and is zero elsewhere; front 0, back `n`. */
  function Rebase(b: Buffer, live: seq<Packet>): (g: Buffer)
    requires Shape(b) && |live| == b.n
    ensures Shape(g) && Contents(g) == live
    ensures g.capacity == b.capacity + FifoAllocSize
    ensures g.front == 0 && g.back == b.n && g.n == b.n
    ensures g.total == b.total && g.budget == b.budget
  {
    var cap := b.capacity + FifoAllocSize;
    var slots := live + seq(cap - b.n, _ => ZeroPacket);
    assert |slots| == cap;
    ModWrap(b.n, cap);
    var g := Buffer(b.budget, cap, b.n, b.total, slots, 0, b.n);
    assert Shape(g);
    forall i | 0 <= i < b.n
      ensures Contents(g)[i] == live[i]
    {
      ModWrap(i, cap);
      assert slots[i] == live[i];
    }
    g
  }

  /** Store a packet at the back slot and advance the back position. */
  function Append(g: Buffer, p: Packet): (r: Buffer)
    requires Shape(g) && g.n < g.capacity - 1
    ensures Shape(r) && Contents(r) == Contents(g) + [p]
    ensures r.n == g.n + 1 && r.total == g.total + p.size && r.back == Next(g.back, g.capacity)
    ensures r.front == g.front && r.capacity == g.capacity && r.budget == g.budget
  {
    var r := g.(slots := g.slots[g.back := p], n := g.n + 1, back := Next(g.back, g.capacity), total := g.total + p.size);
    assert r.back == (r.front + r.n) % r.capacity by {
      ModWrap(g.front + g.n, g.capacity);
      ModWrap(g.front + g.n + 1, g.capacity);
    }
    assert forall i :: 0 <= i < g.n ==> Contents(r)[i] == Contents(g)[i] by {
      forall i | 0 <= i < g.n
        ensures Contents(r)[i] == Contents(g)[i]
      {
        RingDistinct(g.front, i, g.n, g.capacity);
      }
    }
    assert Contents(r)[g.n] == p by {
      ModWrap(g.front + g.n, g.capacity);
    }
    assert Contents(r) == Contents(g) + [p];
    r
  }

  datatype PushResult = Pushed(buf: Buffer) | Full

  /** push_packet: reject with FULL_BUFFER when the packet would take the
      byte total over the budget (before any growth); otherwise grow if only
      one slot is free, then append. */
  function Push(b: Buffer, p: Packet): (r: PushResult)
    requires Shape(b)
    ensures r.Full? <==> b.total + p.size > b.budget
    ensures r.Pushed? ==> Shape(r.buf) && Contents(r.buf) == Contents(b) + [p]
    ensures r.Pushed? ==> r.buf.n == b.n + 1 && r.buf.total == b.total + p.size && r.buf.budget == b.budget
    ensures r.Pushed? && b.n < b.capacity - 1 ==>
              r.buf.capacity == b.capacity && r.buf.front == b.front && r.buf.back == (b.back + 1) % b.capacity
    ensures r.Pushed? && b.n == b.capacity - 1 ==>
              r.buf.capacity == b.capacity + FifoAllocSize && r.buf.front == 0 && r.buf.back == b.n + 1
  {
    if b.total + p.size > b.budget then Full
    else if b.n == b.capacity - 1 then Pushed(Append(Grow(b), p))
    else Pushed(Append(b, p))
  }

  /** The FIFO_STATUS enumeration; its members take the codes 0 and 1 in
      declaration order. */
  datatype FifoStatus = EmptyBuffer | FullBuffer

  function StatusCode(s: FifoStatus): int
  {
    match s
    case EmptyBuffer => 0
    case FullBuffer => 1
  }

  /** Integer status of push: 0 on success, FULL_BUFFER on rejection. */
  function PushCode(r: PushResult): (c: int)
    ensures c != 0 <==> r.Full?
    ensures r.Full? ==> c == StatusCode(FullBuffer)
  {
    if r.Full? then StatusCode(FullBuffer) else 0
  }

  /** The status a producer sees from push_packet: FULL_BUFFER exactly when
      the packet's bytes would take the total past the budget, and 0 when
      the packet was queued. */
  lemma PushCodeReportsBudget(b: Buffer, p: Packet)
    requires Shape(b)
    ensures PushCode(Push(b, p)) == StatusCode(FullBuffer) <==> b.total + p.size > b.budget
    ensures PushCode(Push(b, p)) == 0 <==> Contents(b) + [p] == (if Push(b, p).Pushed? then Contents(Push(b, p).buf) else [])
  {
  }

  // ---------------------------------------------------------------------
  // pop_packet

  datatype PopResult = Popped(packet: Packet, buf: Buffer) | Empty

  /** Drop the front slot from the ring: front advanced, count decremented,
      and the byte total replaced by `total`. */
  function DropFront(b: Buffer, total: nat): (r: Buffer)
    requires Shape(b) && b.n > 0
    ensures Shape(r) && [b.slots[b.front]] + Contents(r) == Contents(b)
    ensures r.n == b.n - 1 && r.front == (b.front + 1) % b.capacity && r.back == b.back
    ensures r.total == total && r.budget == b.budget && r.capacity == b.capacity
  {
    var r := b.(front := Next(b.front, b.capacity), n := b.n - 1, total := total);
    ModWrap(b.front + b.n, b.capacity);
    ModWrap(b.front + 1, b.capacity);
    ModWrap(r.front + r.n, b.capacity);
    assert Shape(r);
    var q := Contents(b);
    ModWrap(b.front, b.capacity);
    assert q[0] == b.slots[b.front];
    forall i | 0 <= i < r.n
      ensures Contents(r)[i] == q[i + 1]
    {
      ModWrap(b.front + 1 + i, b.capacity);
      ModWrap(r.front + i, b.capacity);
    }
    assert Contents(r) == q[1..];
    r
  }

  /** pop_packet: nothing on an empty buffer; otherwise the front packet,
      with its bytes subtracted and the front advanced. */
  function Pop(b: Buffer): (r: PopResult)
    requires FrontCounted(b)
    ensures r.Empty? <==> b.n == 0
    ensures r.Popped? ==> Shape(r.buf) && [r.packet] + Contents(r.buf) == Contents(b)
    ensures r.Popped? ==> r.buf.n == b.n - 1 && r.buf.total == b.total - r.packet.size
    ensures r.Popped? ==> r.buf.front == (b.front + 1) % b.capacity && r.buf.back == b.back
    ensures r.Popped? ==> r.buf.budget == b.budget && r.buf.capacity == b.capacity
  {
    if b.n == 0 then Empty
    else
      var p := b.slots[b.front];
      Popped(p, DropFront(b, b.total - p.size))
  }

  /** A covered buffer meets pop's requirement. */
  lemma CoveredFrontCounted(b: Buffer)
    requires Covered(b)
    ensures FrontCounted(b)
  {
    if b.n > 0 {
      var q := Contents(b);
      BytesFront(q);
      ModWrap(b.front, b.capacity);
      assert q[0] == b.slots[b.front];
    }
  }

  /** Pop keeps the accounting invariant of a buffer that has it. */
  lemma PopKeepsValid(b: Buffer)
    requires FrontCounted(b)
    ensures Valid(b) && b.n > 0 ==> Valid(Pop(b).buf)
  {
    if Valid(b) && b.n > 0 {
      PopKeeps(b);
    }
  }

  /** Pop keeps both invariants, and takes off the byte total exactly the
      bytes it takes off the queue: whatever the total counts beyond the
      queued bytes stays counted. */
  lemma PopKeeps(b: Buffer)
    requires Covered(b) && b.n > 0
    ensures FrontCounted(b)
    ensures Covered(Pop(b).buf)
    ensures Pop(b).buf.total - Bytes(Contents(Pop(b).buf)) == b.total - Bytes(Contents(b))
    ensures Valid(b) ==> Valid(Pop(b).buf)
  {
    CoveredFrontCounted(b);
    var r := Pop(b);
    BytesFront(Contents(b));
    assert Contents(b)[1..] == Contents(r.buf);
  }

  // ---------------------------------------------------------------------
  // flush_buffer and destroy_packet_buffer

  /** The buffer after flush_buffer: empty, byte total zero, both positions
      at slot 0. Slot values are left as they were: no operation reads a
      slot outside the live window. */
  function Flush(b: Buffer): (r: Buffer)
    requires Shape(b)
    ensures Valid(r) && Contents(r) == [] && r.total == 0
    ensures r.front == 0 && r.back == 0
    ensures r.budget == b.budget && r.capacity == b.capacity && r.slots == b.slots
  {
    b.(n := 0, total := 0, front := 0, back := 0)
  }

  /** The walk position after `i` steps reaches the back exactly after
      `n` steps, because `n < capacity`. */
  lemma WalkMeetsBack(b: Buffer, i: nat)
    requires Shape(b) && i <= b.n
    ensures ((b.front + i) % b.capacity == b.back) <==> i == b.n
  {
    if i < b.n {
      RingDistinct(b.front, i, b.n, b.capacity);
    }
  }

  /** The `i`-th step of the walk visits the `i`-th queued packet. */
  lemma WalkVisits(b: Buffer, i: nat)
    requires Shape(b) && i < b.n
    ensures Contents(b)[i] == b.slots[(b.front + i) % b.capacity]
    ensures Next((b.front + i) % b.capacity, b.capacity) == (b.front + i + 1) % b.capacity
  {
    ModWrap(b.front + i, b.capacity);
    ModWrap(b.front + i + 1, b.capacity);
  }

  /** flush_buffer's walk: release every slot from front up to back, then
      reset. The walk stops when the front meets the back, which happens
      after exactly `n` steps only because `n < capacity`. */
  method FlushBuffer(b: Buffer) returns (released: seq<Packet>, r: Buffer)
    requires Shape(b)
    ensures released == Contents(b)
    ensures Valid(r) && Contents(r) == [] && r.total == 0 && r.front == 0 && r.back == 0
    ensures r.budget == b.budget && r.capacity == b.capacity
  {
    released := [];
    var front := b.front;
    ghost var i: nat := 0;
    ModWrap(b.front, b.capacity);
    while front != b.back
      invariant i <= b.n
      invariant front == (b.front + i) % b.capacity
      invariant released == Contents(b)[..i]
      decreases b.n - i
    {
      WalkMeetsBack(b, i);
      WalkVisits(b, i);
      assert Contents(b)[..i + 1] == Contents(b)[..i] + [Contents(b)[i]];
      released := released + [b.slots[front]];
      front := Next(front, b.capacity);
      i := i + 1;
    }
    WalkMeetsBack(b, i);
    assert Contents(b)[..i] == Contents(b);
    r := Flush(b);
  }

  /** destroy_packet_buffer: flush, then set the budget (`size`) to 0 so
      that no packet of positive size is accepted afterwards. Releasing the
      slot array itself is not modelled. */
  method DestroyBuffer(b: Buffer) returns (released: seq<Packet>, r: Buffer)
    requires Shape(b)
    ensures released == Contents(b)
    ensures Valid(r) && Contents(r) == [] && r.budget == 0
    ensures forall p: Packet :: p.size > 0 ==> Push(r, p).Full?
  {
    var f;
    released, f := FlushBuffer(b);
    r := f.(budget := 0);
  }

  // ---------------------------------------------------------------------
  // Sequences of operations

  /** Push the packets of `ps` in order; Full as soon as one is refused. */
  function PushAll(b: Buffer, ps: seq<Packet>): (r: PushResult)
    requires Shape(b)
    ensures r.Pushed? ==> Shape(r.buf) && Contents(r.buf) == Contents(b) + ps
    ensures r.Pushed? ==> r.buf.n == b.n + |ps|
    ensures r.Pushed? ==> r.buf.total == b.total + Bytes(ps) && r.buf.budget == b.budget
    ensures r.Pushed? && b.n + |ps| < b.capacity ==> r.buf.capacity == b.capacity && r.buf.front == b.front
    decreases |ps|
  {
    if |ps| == 0 then
      assert Contents(b) + ps == Contents(b);
      Pushed(b)
    else
      var init := ps[..|ps| - 1];
      var last := ps[|ps| - 1];
      assert ps == init + [last];
      assert Contents(b) + init + [last] == Contents(b) + ps;
      var r := PushAll(b, init);
      if r.Full? then Full
      else Push(r.buf, last)
  }

  /** Pop until the buffer reports empty; the packets in the order popped. */
  function PopAll(b: Buffer): seq<Packet>
    requires Covered(b)
    decreases b.n
  {
    CoveredFrontCounted(b);
    if b.n == 0 then []
    else
      PopKeeps(b);
      var r := Pop(b);
      [r.packet] + PopAll(r.buf)
  }

  /** The buffer left once everything has been popped: empty, and still
      counting whatever bytes the total held beyond the queued ones. */
  function PopUntilEmpty(b: Buffer): (e: Buffer)
    requires Covered(b)
    ensures Covered(e) && e.n == 0 && e.budget == b.budget
    ensures e.total == b.total - Bytes(Contents(b))
    decreases b.n
  {
    if b.n == 0 then b
    else
      PopKeeps(b);
      PopUntilEmpty(Pop(b).buf)
  }
}

=== FILE: packet_buffer_defects.dfy ===
/** Three places where src/packet_buffer.c does not do what its header
    promises, each modelled exactly as written next to a lemma that
    exhibits the discrepancy. The corrected behaviour is the one module
    PacketBuffer defines and the rest of the model uses.

    1. Growth in the contiguous layout copies `n_packets - 1` slots.
    2. pop_packet on an empty buffer returns EMPTY_BUFFER, which is 0, the
       same code as success.
    3. init_packet_buffer never assigns `size_packets`. */
module PacketBufferDefects {
  import opened Fifo
  import opened PacketBuffer
  import PacketBufferProofs

  // ---------------------------------------------------------------------
  // 1. Growth

  /** Growth as written: the contiguous branch copies `n - 1` slots from
      the front; the wrapped branch copies the front-to-end segment and
      then `n - k` slots from the start, where `k` is the length of the
      first segment. Everything not copied is the zero left by memset. */
  function GrowAsWritten(b: Buffer): (g: Buffer)
    requires Shape(b) && b.n == b.capacity - 1
    ensures Shape(g) && g.capacity == b.capacity + FifoAllocSize
    ensures g.front == 0 && g.back == b.n && g.n == b.n && g.total == b.total && g.budget == b.budget
  {
    ModWrap(b.front + b.n, b.capacity);
    var cap := b.capacity + FifoAllocSize;
    var copied :=
      if b.front < b.back then b.slots[b.front..b.front + (b.n - 1)]
      else b.slots[b.front..] + b.slots[..b.n - (b.capacity - b.front)];
    ModWrap(b.n, cap);
    Buffer(b.budget, cap, b.n, b.total, copied + seq(cap - |copied|, _ => ZeroPacket), 0, b.n)
  }

  /** push_packet exactly as written, using GrowAsWritten. */
  function PushAsWritten(b: Buffer, p: Packet): (r: PushResult)
    requires Shape(b)
    ensures r.Full? <==> b.total + p.size > b.budget
    ensures r.Pushed? ==> Shape(r.buf) && r.buf.n == b.n + 1 && r.buf.total == b.total + p.size
    ensures r.Pushed? ==> r.buf.budget == b.budget
  {
    if b.total + p.size > b.budget then Full
    else if b.n == b.capacity - 1 then Pushed(Append(GrowAsWritten(b), p))
    else Pushed(Append(b, p))
  }

  /** A sequence of pushes as written; Full as soon as one is refused. */
  function PushAllAsWritten(b: Buffer, ps: seq<Packet>): (r: PushResult)
    requires Shape(b)
    ensures r.Pushed? ==> Shape(r.buf) && r.buf.n == b.n + |ps|
    decreases |ps|
  {
    if |ps| == 0 then Pushed(b)
    else
      var r := PushAllAsWritten(b, ps[..|ps| - 1]);
      if r.Full? then Full else PushAsWritten(r.buf, ps[|ps| - 1])
  }

  /** The wrapped branch of growth is correct as written: it builds the
      same buffer as the corrected growth. */
  lemma WrappedGrowthAsWrittenIsCorrect(b: Buffer)
    requires Shape(b) && b.n == b.capacity - 1 && b.front >= b.back
    ensures GrowAsWritten(b) == Grow(b)
    ensures Contents(GrowAsWritten(b)) == Contents(b)
  {
    ModWrap(b.front + b.n, b.capacity);
    var cap := b.capacity + FifoAllocSize;
    var copied := b.slots[b.front..] + b.slots[..b.n - (b.capacity - b.front)];
    assert Unwrap(b) == copied;
    assert GrowAsWritten(b).slots == Grow(b).slots;
  }

  /** Pushes that do not hit contiguous growth behave as corrected. */
  lemma PushAsWrittenAgrees(b: Buffer, p: Packet)
    requires Shape(b) && !(b.n == b.capacity - 1 && b.front < b.back)
    ensures PushAsWritten(b, p) == Push(b, p)
  {
    if b.n == b.capacity - 1 && b.total + p.size <= b.budget {
      WrappedGrowthAsWrittenIsCorrect(b);
    }
  }

  /** The contiguous branch of growth loses the newest queued packet: its
      slot in the new array is the zero left by memset. */
  lemma ContiguousGrowthLosesNewest(b: Buffer)
    requires Shape(b) && b.n == b.capacity - 1 && b.front < b.back
    ensures Contents(GrowAsWritten(b)) == Contents(b)[..b.n - 1] + [ZeroPacket]
  {
    ModWrap(b.front + b.n, b.capacity);
    var g := GrowAsWritten(b);
    var q := Contents(b);
    forall i | 0 <= i < b.n
      ensures Contents(g)[i] == (q[..b.n - 1] + [ZeroPacket])[i]
    {
      ModWrap(i, g.capacity);
      ModWrap(i, b.capacity);
      assert q[i] == b.slots[i];
    }
  }

  /** A push that triggers contiguous growth appends `p` after a zero
      packet where the newest queued packet was, yet adds to a byte total
      that still counts the lost packet: the accounting invariant breaks
      as soon as that packet had any bytes. */
  lemma ContiguousGrowthDropsPacket(b: Buffer, p: Packet)
    requires Valid(b) && b.n == b.capacity - 1 && b.front < b.back
    requires b.total + p.size <= b.budget
    ensures PushAsWritten(b, p).Pushed?
    ensures Contents(PushAsWritten(b, p).buf) == Contents(b)[..b.n - 1] + [ZeroPacket, p]
    ensures PushAsWritten(b, p).buf.total == b.total + p.size
    ensures Contents(PushAsWritten(b, p).buf)[b.n - 1] == ZeroPacket
    ensures Contents(b)[b.n - 1].size > 0 ==> !Valid(PushAsWritten(b, p).buf)
    ensures Contents(b)[b.n - 1].size > 0 ==> Contents(PushAsWritten(b, p).buf) != Contents(b) + [p]
    ensures PushAsWritten(b, p).buf.total == Bytes(Contents(PushAsWritten(b, p).buf)) + Contents(b)[b.n - 1].size
  {
    ContiguousGrowthLosesNewest(b);
    var q := Contents(b);
    var kept := q[..b.n - 1];
    var r := PushAsWritten(b, p).buf;
    assert Contents(r) == kept + [ZeroPacket] + [p];
    assert kept + [ZeroPacket] + [p] == kept + [ZeroPacket, p];
    assert q == kept + [q[b.n - 1]];
    BytesAppend(kept, [q[b.n - 1]]);
    BytesAppend(kept, [ZeroPacket, p]);
    assert [ZeroPacket, p][..1] == [ZeroPacket];
    assert [ZeroPacket][..0] == [];
    assert [q[b.n - 1]][..0] == [];
    assert Contents(r)[b.n - 1] == ZeroPacket;
    assert (q + [p])[b.n - 1] == q[b.n - 1];
  }

  /** The first 999 pushes into a fresh buffer never grow it, so as
      written they build the same buffer as corrected. */
  lemma {:induction false} PushAllAsWrittenAgrees(b: Buffer, ps: seq<Packet>)
    requires Shape(b) && b.n + |ps| < b.capacity
    ensures PushAllAsWritten(b, ps) == PushAll(b, ps)
    decreases |ps|
  {
    if |ps| > 0 {
      var init := ps[..|ps| - 1];
      PushAllAsWrittenAgrees(b, init);
      var r := PushAll(b, init);
      if r.Pushed? {
        PushAsWrittenAgrees(r.buf, ps[|ps| - 1]);
      }
    }
  }

  /** The counterexample: push 999 packets into a fresh buffer with no
      pop in between, then a 1000th. The 1000th push grows the ring in the
      contiguous layout, and the 999th packet is replaced by a zero packet
      while its bytes stay in the total, so popping everything would no
      longer return what was pushed. */
  lemma ThousandthPushLosesPacket(budget: nat, ps: seq<Packet>, p: Packet)
    requires |ps| == FifoAllocSize - 1
    requires Bytes(ps) + p.size <= budget
    requires ps[|ps| - 1].size > 0
    ensures PushAllAsWritten(Fresh(budget), ps + [p]).Pushed?
    ensures Contents(PushAllAsWritten(Fresh(budget), ps + [p]).buf)[|ps| - 1] == ZeroPacket
    ensures Contents(PushAllAsWritten(Fresh(budget), ps + [p]).buf) != ps + [p]
    ensures !Valid(PushAllAsWritten(Fresh(budget), ps + [p]).buf)
  {
    var mid := LastPushAsWritten(budget, ps, p);
    GrowthDropsLastOf(mid, ps, p);
  }

  /** ContiguousGrowthDropsPacket for a buffer holding exactly `ps`. */
  lemma GrowthDropsLastOf(mid: Buffer, ps: seq<Packet>, p: Packet)
    requires Valid(mid) && mid.n == mid.capacity - 1 && mid.front < mid.back
    requires mid.total + p.size <= mid.budget
    requires Contents(mid) == ps && ps[|ps| - 1].size > 0
    ensures PushAsWritten(mid, p).Pushed?
    ensures Contents(PushAsWritten(mid, p).buf)[|ps| - 1] == ZeroPacket
    ensures Contents(PushAsWritten(mid, p).buf) != ps + [p]
    ensures !Valid(PushAsWritten(mid, p).buf)
  {
    assert |ps| == mid.n && Contents(mid)[mid.n - 1].size > 0;
    ContiguousGrowthDropsPacket(mid, p);
  }

  /** The 1000 pushes as written are the 999 corrected ones followed by one
      push as written from the buffer they reach. */
  lemma LastPushAsWritten(budget: nat, ps: seq<Packet>, p: Packet) returns (mid: Buffer)
    requires |ps| == FifoAllocSize - 1
    requires Bytes(ps) + p.size <= budget
    ensures Valid(mid) && Contents(mid) == ps && mid.total == Bytes(ps)
    ensures PushAllAsWritten(Fresh(budget), ps + [p]) == PushAsWritten(mid, p)
    ensures mid.n == mid.capacity - 1 && mid.front < mid.back
    ensures mid.budget == budget && mid.total + p.size <= mid.budget
  {
    var b := Fresh(budget);
    var all := ps + [p];
    assert all[..|all| - 1] == ps;
    PushAllAsWrittenAgrees(b, ps);
    mid := ReachContiguousGrowth(budget, ps);
  }

  /** The lost packet's bytes outlive it: after the 1000th push, a
      consumer that pops everything leaves an empty buffer whose byte total
      still holds the 999th packet's size. Until a flush, the budget stays
      short by that much, so even the empty buffer refuses a packet of the
      whole budget, which a correct empty buffer accepts. */
  lemma LostBytesOutliveDrain(budget: nat, ps: seq<Packet>, p: Packet)
    requires |ps| == FifoAllocSize - 1
    requires Bytes(ps) + p.size <= budget
    requires ps[|ps| - 1].size > 0
    ensures PushAllAsWritten(Fresh(budget), ps + [p]).Pushed?
    ensures Covered(PushAllAsWritten(Fresh(budget), ps + [p]).buf)
    ensures PopUntilEmpty(PushAllAsWritten(Fresh(budget), ps + [p]).buf).total == ps[|ps| - 1].size
    ensures Push(PopUntilEmpty(PushAllAsWritten(Fresh(budget), ps + [p]).buf), Packet(0, budget)).Full?
    ensures Push(Fresh(budget), Packet(0, budget)).Pushed?
  {
    var mid := LastPushAsWritten(budget, ps, p);
    LeakAfterGrowth(mid, ps, p);
  }

  /** LostBytesOutliveDrain for the push that triggers contiguous growth. */
  lemma LeakAfterGrowth(mid: Buffer, ps: seq<Packet>, p: Packet)
    requires Valid(mid) && mid.n == mid.capacity - 1 && mid.front < mid.back
    requires mid.total + p.size <= mid.budget
    requires Contents(mid) == ps && ps[|ps| - 1].size > 0
    ensures PushAsWritten(mid, p).Pushed?
    ensures Covered(PushAsWritten(mid, p).buf)
    ensures PopUntilEmpty(PushAsWritten(mid, p).buf).total == ps[|ps| - 1].size
    ensures Push(PopUntilEmpty(PushAsWritten(mid, p).buf), Packet(0, mid.budget)).Full?
  {
    assert |ps| == mid.n && Contents(mid)[mid.n - 1] == ps[|ps| - 1];
    ContiguousGrowthDropsPacket(mid, p);
  }

  /** Every push as written keeps Covered: the contiguous growth replaces a
      packet by a zero one, which only lowers the queued bytes. So every
      buffer the source builds can be popped without the byte total
      wrapping. */
  lemma PushAsWrittenKeepsCovered(b: Buffer, p: Packet)
    requires Covered(b)
    ensures PushAsWritten(b, p).Pushed? ==> Covered(PushAsWritten(b, p).buf)
  {
    var r := PushAsWritten(b, p);
    if r.Pushed? {
      if b.n == b.capacity - 1 && b.front < b.back {
        ContiguousGrowthLosesNewest(b);
        var q := Contents(b);
        var kept := q[..b.n - 1];
        var g := GrowAsWritten(b);
        assert Contents(r.buf) == Contents(g) + [p];
        assert q == kept + [q[b.n - 1]];
        BytesAppend(kept, [q[b.n - 1]]);
        BytesAppend(kept, [ZeroPacket]);
        BytesAppend(Contents(g), [p]);
        assert [q[b.n - 1]][..0] == [];
        assert [ZeroPacket][..0] == [];
        assert [p][..0] == [];
      } else {
        PushAsWrittenAgrees(b, p);
        BytesAppend(Contents(b), [p]);
        assert [p][..0] == [];
      }
    }
  }

  /** 999 pushes into a fresh buffer leave the front at slot 0 and one free
      slot: the next push grows the ring in the contiguous layout. */
  lemma ReachContiguousGrowth(budget: nat, ps: seq<Packet>) returns (mid: Buffer)
    requires |ps| == FifoAllocSize - 1 && Bytes(ps) <= budget
    ensures PushAll(Fresh(budget), ps) == Pushed(mid)
    ensures Valid(mid) && Contents(mid) == ps && mid.total == Bytes(ps)
    ensures mid.n == mid.capacity - 1 && mid.front == 0 && mid.front < mid.back
  {
    var b := Fresh(budget);
    assert Contents(b) + ps == ps;
    PacketBufferProofs.PushAllAccepted(b, ps);
    mid := PushAll(b, ps).buf;
    ModWrap(mid.n, mid.capacity);
  }

  // ---------------------------------------------------------------------
  // 2. The status code of pop

  /** Integer status of pop_packet as written: 0 on success and
      EMPTY_BUFFER on an empty buffer. EMPTY_BUFFER is 0, so every pop
      reports 0. */
  function PopCodeAsWritten(r: PopResult): (c: int)
    ensures c == 0
  {
    if r.Empty? then StatusCode(EmptyBuffer) else 0
  }

  /** The header promises a non-zero result on an empty buffer, but the
      code returned for an empty buffer equals the code for a successful
      pop, so a caller testing `!= 0` cannot tell them apart. */
  lemma EmptyPopReportsSuccess(empty: Buffer, full: Buffer)
    requires Shape(empty) && empty.n == 0
    requires FrontCounted(full) && full.n > 0
    ensures Pop(empty).Empty? && Pop(full).Popped?
    ensures PopCodeAsWritten(Pop(empty)) == PopCodeAsWritten(Pop(full)) == 0
  {
  }

  /** Integer status of pop as the header documents it: zero on success,
      non-zero on an empty buffer. The consumer model uses this one. */
  function PopCode(r: PopResult): (c: int)
    ensures c != 0 <==> r.Empty?
  {
    if r.Empty? then 1 else 0
  }

  // ---------------------------------------------------------------------
  // 3. The byte total at init

  /** init_packet_buffer as written: every field is set except the byte
      total, which keeps whatever value `prior` the struct held before. */
  function InitAsWritten(budget: nat, allocOk: bool, prior: nat): (r: InitResult)
    ensures InitCode(r) == 1 <==> !allocOk
    ensures r.Ready? ==> Shape(r.buf) && Contents(r.buf) == [] && r.buf.total == prior
  {
    if !allocOk then InitFailed else Ready(Fresh(budget).(total := prior))
  }

  /** The buffer init hands back satisfies the accounting invariant exactly
      when the stale byte total happened to be 0 (as it is for the player's
      zero-initialised static buffers, and after destroy, which flushes). */
  lemma InitAsWrittenValidIff(budget: nat, prior: nat)
    ensures InitAsWritten(budget, true, prior).Ready?
    ensures Valid(InitAsWritten(budget, true, prior).buf) <==> prior == 0
    ensures InitAsWritten(budget, true, 0) == Init(budget, true)
  {
  }

  /** With a stale total, an empty buffer refuses packets it has room
      for: with `prior == budget` it refuses every packet with any bytes. */
  lemma StaleTotalRefusesPackets(budget: nat, prior: nat, p: Packet)
    requires p.size <= budget && prior + p.size > budget
    ensures Contents(InitAsWritten(budget, true, prior).buf) == []
    ensures Push(InitAsWritten(budget, true, prior).buf, p).Full?
    ensures Push(Init(budget, true).buf, p).Pushed?
  {
  }
}

=== FILE: packet_buffer_proofs.dfy ===
/** The ring buffer of module PacketBuffer refines the reference FIFO of
    module Fifo: under the abstraction `Abstract`, push, pop and flush do
    what Enqueue, Dequeue and Clear do, and the accounting invariant
    `Valid` is kept. From that follow strict FIFO order across any number
    of growth steps, the byte ceiling, and recovery after a flush. */
module PacketBufferProofs {
  import opened Fifo
  import opened PacketBuffer

  /** push_packet refines Enqueue and keeps the invariant. */
  lemma PushRefines(b: Buffer, p: Packet)
    requires Valid(b)
    ensures Push(b, p).Full? <==> Enqueue(Abstract(b), p).Rejected?
    ensures Push(b, p).Pushed? ==>
              Valid(Push(b, p).buf) && Abstract(Push(b, p).buf) == Enqueue(Abstract(b), p).queue
  {
    var r := Push(b, p);
    if r.Pushed? {
      BytesAppend(Contents(b), [p]);
      assert [p][..0] == [];
    }
  }

  /** Push keeps the accounting invariant of a buffer that has it. */
  lemma PushKeepsValid(b: Buffer, p: Packet)
    requires Shape(b)
    ensures Valid(b) && Push(b, p).Pushed? ==> Valid(Push(b, p).buf)
  {
    if Valid(b) {
      PushRefines(b, p);
    }
  }

  /** pop_packet refines Dequeue and keeps the invariant. */
  lemma PopRefines(b: Buffer)
    requires Valid(b)
    ensures FrontCounted(b)
    ensures Pop(b).Empty? <==> Dequeue(Abstract(b)).Nothing?
    ensures Pop(b).Popped? ==>
              && Valid(Pop(b).buf)
              && Pop(b).packet == Dequeue(Abstract(b)).packet
              && Abstract(Pop(b).buf) == Dequeue(Abstract(b)).queue
  {
    CoveredFrontCounted(b);
    if b.n > 0 {
      PopKeeps(b);
      var r := Pop(b);
      assert Contents(b)[0] == r.packet;
      assert Contents(b)[1..] == Contents(r.buf);
    }
  }

  /** flush_buffer refines Clear. */
  lemma FlushRefines(b: Buffer)
    requires Shape(b)
    ensures Valid(Flush(b)) && Abstract(Flush(b)) == Clear(Abstract(b))
  {
  }

  /** A push that lands exactly on the byte budget is accepted. */
  lemma PushUpToBudget(b: Buffer, p: Packet)
    requires Valid(b) && b.total + p.size == b.budget
    ensures Push(b, p).Pushed? && Push(b, p).buf.total == b.budget
  {
  }

  /** Growth happens exactly when one free slot is left, and after every
      push at least one slot is free again. */
  lemma GrowthExactlyAtLastSlot(b: Buffer, p: Packet)
    requires Valid(b) && Push(b, p).Pushed?
    ensures Push(b, p).buf.capacity != b.capacity <==> b.n == b.capacity - 1
    ensures Push(b, p).buf.n < Push(b, p).buf.capacity
  {
  }

  /** Pushing packets whose bytes fit in the remaining budget accepts them
      all and appends them to the logical contents. */
  lemma {:induction false} PushAllAccepted(b: Buffer, ps: seq<Packet>)
    requires Valid(b) && b.total + Bytes(ps) <= b.budget
    ensures PushAll(b, ps).Pushed?
    ensures Valid(PushAll(b, ps).buf) && Contents(PushAll(b, ps).buf) == Contents(b) + ps
    decreases |ps|
  {
    if |ps| > 0 {
      var init := ps[..|ps| - 1];
      var last := ps[|ps| - 1];
      assert ps == init + [last];
      BytesAppend(init, [last]);
      assert [last][..0] == [];
      PushAllAccepted(b, init);
      var mid := PushAll(b, init).buf;
      PushRefines(mid, last);
    }
  }

  /** Popping until empty yields the logical contents, front first, also
      when the byte total counts more than the queued bytes. */
  lemma {:induction false} PopAllIsContents(b: Buffer)
    requires Covered(b)
    ensures PopAll(b) == Contents(b)
    decreases b.n
  {
    if b.n > 0 {
      PopKeeps(b);
      var r := Pop(b);
      PopAllIsContents(r.buf);
    }
  }

  /** Strict FIFO order: packets pushed into an empty buffer (a fresh one,
      or one just flushed) come out of pop in the order they went in,
      however many growth steps the pushes caused and wherever front and
      back stood when growth fired. */
  lemma FifoOrder(b: Buffer, ps: seq<Packet>)
    requires Valid(b) && b.n == 0 && Bytes(ps) <= b.budget
    ensures PushAll(b, ps).Pushed? && Valid(PushAll(b, ps).buf)
    ensures PopAll(PushAll(b, ps).buf) == ps
  {
    assert Contents(b) == [];
    PushAllAccepted(b, ps);
    var r := PushAll(b, ps);
    assert Contents(r.buf) == ps;
    PopAllIsContents(r.buf);
  }

  /** After a flush, any packet no larger than the whole budget is
      accepted, even if the buffer had been full. */
  lemma PushAfterFlush(b: Buffer, p: Packet)
    requires Shape(b) && p.size <= b.budget
    ensures Push(Flush(b), p).Pushed? && Contents(Push(Flush(b), p).buf) == [p]
  {
  }

  /** With a budget of 100 bytes: 60 is accepted, 50 more is refused with
      nothing changed, popping returns the 60-byte packet and leaves a
      byte total of 0, and then 50 is accepted. */
  lemma BudgetScenario()
    ensures var b0 := Fresh(100);
            var r1 := Push(b0, Packet(1, 60));
            && r1.Pushed?
            && Push(r1.buf, Packet(2, 50)).Full?
            && var r3 := Pop(r1.buf);
               && r3 == Popped(Packet(1, 60), r3.buf)
               && r3.buf.total == 0
               && Push(r3.buf, Packet(3, 50)).Pushed?
  {
    var b0 := Fresh(100);
    var r1 := Push(b0, Packet(1, 60));
    PushRefines(b0, Packet(1, 60));
    assert Contents(r1.buf) == [Packet(1, 60)];
    var r3 := Pop(r1.buf);
    assert r3.Popped?;
  }

  const U32: nat := 0x1_0000_0000

  /** The source compares `size_packets + p.size` in 32-bit unsigned
      arithmetic. While the budget is below 2^31 (the player uses 5 MiB) and
      a packet size, an `int`, is below 2^31, the sum cannot wrap, so the
      unbounded comparison of Push is the source's comparison. */
  lemma BudgetCheckCannotWrap(total: nat, size: nat, budget: nat)
    requires total <= budget < U32 / 2 && size < U32 / 2
    ensures ((total + size) % U32 > budget) == (total + size > budget)
  {
  }
}

=== FILE: pipeline.dfy ===
/** The packet routing and thread-loop decisions of src/player.c, with the
    demuxer, decoders and threads left out: process_packet as one pass of
    its retry loop, one pass of the reading loop, the loop conditions of
    the two decoding threads, one iteration of a decoding thread's
    pop-or-back-off step, and the queue flush of rpi_mp_seek.

    Hazards outside a sequential model, noted here only: WAIT_WHILE_PAUSED
    waits on the pause condition without re-checking PAUSED, so a resume
    broadcast that lands before the wait is lost; the decoding threads read
    `n_packets` without the buffer's mutex; and rpi_mp_seek returns on its
    error paths while still holding the decoding-thread locks. */
module Pipeline {
  import opened Fifo
  import opened PacketBuffer
  import opened PlayerFlags
  import PacketBufferDefects
  import PacketBufferProofs
  import opened VideoChunks

  /** A packet as the demuxer hands it over: an identity, a signed size and
      the index of the stream it belongs to. */
  datatype Demuxed = Demuxed(id: nat, size: int, stream: int)

  /** The queue process_packet chooses for a packet. */
  datatype Target = NoQueue | VideoQueue | AudioQueue

  /** Routing: packets of negative size are ignored; the video stream wins
      over the audio stream; packets of any other stream are ignored. */
  function Route(d: Demuxed, videoIdx: int, audioIdx: int): (t: Target)
    ensures t.NoQueue? <==> d.size < 0 || (d.stream != videoIdx && d.stream != audioIdx)
    ensures t.VideoQueue? ==> d.stream == videoIdx
    ensures t.AudioQueue? ==> d.stream == audioIdx && d.stream != videoIdx
  {
    if d.size < 0 then NoQueue
    else if d.stream == videoIdx then VideoQueue
    else if d.stream == audioIdx then AudioQueue
    else NoQueue
  }

  /** The queued form of a routed packet. */
  function Queued(d: Demuxed): Packet
    requires d.size >= 0
  {
    Packet(d.id, d.size)
  }

  /** How one pass of process_packet ends: it returns a code, or the push
      was refused and the source sleeps and tries again. */
  datatype Outcome = Returned(code: int) | RetryLater

  datatype Attempt = Attempt(outcome: Outcome, video: Buffer, audio: Buffer)

  /** One pass of process_packet. A retry is another call with the same
      packet and flags as they then are, since routing depends only on the
      packet and the stream indices. Waiting while PAUSED is not modelled. */
  function ProcessPacket(d: Demuxed, videoIdx: int, audioIdx: int, f: Flags, video: Buffer, audio: Buffer): (r: Attempt)
    requires Shape(video) && Shape(audio)
    ensures r.outcome.Returned? ==> r.outcome.code == 0
    ensures Route(d, videoIdx, audioIdx).NoQueue? || IsSet(f, Stopped) ==> r == Attempt(Returned(0), video, audio)
    ensures r.video == video || r.audio == audio
    ensures r.outcome.RetryLater? ==> r.video == video && r.audio == audio
    ensures r.video.budget == video.budget && r.audio.budget == audio.budget
    ensures Valid(video) && Valid(audio) ==> Valid(r.video) && Valid(r.audio)
    ensures r.video != video ==>
              Route(d, videoIdx, audioIdx).VideoQueue? && Shape(r.video) && Contents(r.video) == Contents(video) + [Queued(d)]
    ensures r.audio != audio ==>
              Route(d, videoIdx, audioIdx).AudioQueue? && Shape(r.audio) && Contents(r.audio) == Contents(audio) + [Queued(d)]
    ensures !IsSet(f, Stopped) && Route(d, videoIdx, audioIdx).VideoQueue? && video.total + d.size <= video.budget ==>
              && r.outcome == Returned(0)
              && Shape(r.video) && Contents(r.video) == Contents(video) + [Queued(d)]
              && r.video.total == video.total + d.size && r.audio == audio
    ensures !IsSet(f, Stopped) && Route(d, videoIdx, audioIdx).AudioQueue? && audio.total + d.size <= audio.budget ==>
              && r.outcome == Returned(0)
              && Shape(r.audio) && Contents(r.audio) == Contents(audio) + [Queued(d)]
              && r.audio.total == audio.total + d.size && r.video == video
    ensures r.outcome.RetryLater? <==>
              && !IsSet(f, Stopped)
              && match Route(d, videoIdx, audioIdx)
                 case NoQueue => false
                 case VideoQueue => video.total + d.size > video.budget
                 case AudioQueue => audio.total + d.size > audio.budget
  {
    match Route(d, videoIdx, audioIdx)
    case NoQueue => Attempt(Returned(0), video, audio)
    case VideoQueue =>
      PacketBufferProofs.PushKeepsValid(video, Queued(d));
      if IsSet(f, Stopped) then Attempt(Returned(0), video, audio)
      else
        (match Push(video, Queued(d))
         case Full => Attempt(RetryLater, video, audio)
         case Pushed(v) => Attempt(Returned(0), v, audio))
    case AudioQueue =>
      PacketBufferProofs.PushKeepsValid(audio, Queued(d));
      if IsSet(f, Stopped) then Attempt(Returned(0), video, audio)
      else
        match Push(audio, Queued(d))
        case Full => Attempt(RetryLater, video, audio)
        case Pushed(a) => Attempt(Returned(0), video, a)
  }

  /** The condition of rpi_mp_start's reading loop: STOPPED is clear and
      av_read_frame succeeded (`readOk`). */
  predicate ReaderContinues(f: Flags, readOk: bool)
  {
    !IsSet(f, Stopped) && readOk
  }

  /** Where one pass of the reading loop leaves the reader: out of the loop
      on its condition, out of the loop on a non-zero process_packet
      result, still inside process_packet's retry loop, or ready to read
      the next packet. */
  datatype ReaderStep =
    | LeaveLoop
    | BreakOnError
    | StillPushing(attempt: Attempt)
    | NextPacket(video: Buffer, audio: Buffer)

  /** One pass of the reading loop of rpi_mp_start with the packet `d` that
      av_read_frame produced, if `readOk`. */
  function ReaderStepOf(f: Flags, readOk: bool, d: Demuxed, videoIdx: int, audioIdx: int, video: Buffer, audio: Buffer): (r: ReaderStep)
    requires Shape(video) && Shape(audio)
    ensures r.LeaveLoop? <==> !ReaderContinues(f, readOk)
    ensures r.StillPushing? ==> r.attempt.outcome.RetryLater? && r.attempt.video == video && r.attempt.audio == audio
    ensures r.NextPacket? ==> Shape(r.video) && Shape(r.audio)
    ensures r.NextPacket? && r.video != video ==> Route(d, videoIdx, audioIdx).VideoQueue? && Contents(r.video) == Contents(video) + [Queued(d)]
    ensures r.NextPacket? && r.audio != audio ==> Route(d, videoIdx, audioIdx).AudioQueue? && Contents(r.audio) == Contents(audio) + [Queued(d)]
    ensures ReaderContinues(f, readOk) && Route(d, videoIdx, audioIdx).NoQueue? ==> r == NextPacket(video, audio)
    ensures r.StillPushing? <==>
              && ReaderContinues(f, readOk)
              && match Route(d, videoIdx, audioIdx)
                 case NoQueue => false
                 case VideoQueue => video.total + d.size > video.budget
                 case AudioQueue => audio.total + d.size > audio.budget
    ensures ReaderContinues(f, readOk) && Route(d, videoIdx, audioIdx).VideoQueue? && video.total + d.size <= video.budget ==>
              && r.NextPacket? && r.audio == audio
              && Shape(r.video) && Contents(r.video) == Contents(video) + [Queued(d)]
    ensures ReaderContinues(f, readOk) && Route(d, videoIdx, audioIdx).AudioQueue? && audio.total + d.size <= audio.budget ==>
              && r.NextPacket? && r.video == video
              && Shape(r.audio) && Contents(r.audio) == Contents(audio) + [Queued(d)]
  {
    if !ReaderContinues(f, readOk) then LeaveLoop
    else
      var a := ProcessPacket(d, videoIdx, audioIdx, f, video, audio);
      match a.outcome
      case RetryLater => StillPushing(a)
      case Returned(code) => if code != 0 then BreakOnError else NextPacket(a.video, a.audio)
  }

  /** The reader never takes the break on a process_packet result: that
      result is 0 on every path, so the reading loop ends only on STOPPED
      or a failed read. */
  lemma ReaderNeverBreaksOnProcessResult(f: Flags, readOk: bool, d: Demuxed, videoIdx: int, audioIdx: int, video: Buffer, audio: Buffer)
    requires Shape(video) && Shape(audio)
    ensures !ReaderStepOf(f, readOk, d, videoIdx, audioIdx, video, audio).BreakOnError?
    ensures ReaderContinues(f, readOk) ==>
              ReaderStepOf(f, readOk, d, videoIdx, audioIdx, video, audio).NextPacket?
              || ReaderStepOf(f, readOk, d, videoIdx, audioIdx, video, audio).StillPushing?
  {
  }

  /** video_decoding_thread's loop condition. */
  predicate VideoLoopContinues(f: Flags, queued: nat)
  {
    !IsSet(f, Stopped) && (!IsSet(f, DoneReading) || queued != 0)
  }

  /** audio_decoding_thread's loop condition together with the break at the
      top of its body. */
  predicate AudioLoopContinues(f: Flags, queued: nat)
  {
    if IsSet(f, Stopped) then false
    else if IsSet(f, DoneReading) && queued == 0 then false
    else true
  }

  /** Both decoding threads run exactly while STOPPED is clear and either
      reading is not finished or their queue still holds packets. */
  lemma ConsumerGuardsAgree(f: Flags, queued: nat)
    ensures VideoLoopContinues(f, queued) == AudioLoopContinues(f, queued)
    ensures VideoLoopContinues(f, queued) <==>
              !IsSet(f, Stopped) && !(IsSet(f, DoneReading) && queued == 0)
  {
  }

  /** Once the reader has finished (DONE_READING set after its loop), a
      decoding thread with an empty queue stops. */
  lemma DoneReadingEndsEmptyConsumer(f: Flags)
    ensures !VideoLoopContinues(SetFlag(f, DoneReading), 0)
    ensures !AudioLoopContinues(SetFlag(f, DoneReading), 0)
  {
  }

  /** One iteration of a decoding thread. */
  datatype ConsumerStep = Exit | Backoff | Decode(packet: Packet, buf: Buffer)

  /** One iteration of the decoding loop as its author meant it, with pop's
      status as the header documents it (PacketBufferDefects.PopCode): leave
      the loop, or pop; on an empty queue sleep and try again, otherwise
      hand the popped packet to the decoder. */
  function ConsumerStepOf(f: Flags, b: Buffer): (r: ConsumerStep)
    requires FrontCounted(b)
    ensures r.Exit? <==> !VideoLoopContinues(f, b.n)
    ensures r.Backoff? <==> VideoLoopContinues(f, b.n) && Contents(b) == []
    ensures r.Decode? ==> Shape(r.buf) && [r.packet] + Contents(r.buf) == Contents(b) && r.buf.n == b.n - 1
    ensures r.Decode? ==> r.buf.total == b.total - r.packet.size && r.buf.budget == b.budget
    ensures r.Decode? && Valid(b) ==> Valid(r.buf)
  {
    PopKeepsValid(b);
    if !VideoLoopContinues(f, b.n) then Exit
    else
      var pr := Pop(b);
      if PacketBufferDefects.PopCode(pr) != 0 then Backoff else Decode(pr.packet, pr.buf)
  }

  /** One iteration with pop's status code as written: an empty pop looks
      like success, so instead of sleeping the thread goes on to decode its
      packet variable `stale` as the previous iteration left it, with the
      queue unchanged. */
  function ConsumerStepAsWritten(f: Flags, b: Buffer, stale: Packet): (r: ConsumerStep)
    requires FrontCounted(b)
    ensures r.Exit? <==> !VideoLoopContinues(f, b.n)
    ensures !r.Backoff?
    ensures b.n > 0 ==> r == ConsumerStepOf(f, b)
    ensures VideoLoopContinues(f, b.n) && b.n == 0 ==> r == Decode(stale, b)
  {
    if !VideoLoopContinues(f, b.n) then Exit
    else
      var pr := Pop(b);
      if PacketBufferDefects.PopCodeAsWritten(pr) != 0 then Backoff
      else if pr.Empty? then Decode(stale, b)
      else Decode(pr.packet, pr.buf)
  }

  /** As written, the back-off branch of the decoding loops is dead: where
      the documented status would make the thread sleep, it decodes its
      stale packet variable with the queue unchanged. */
  lemma AsWrittenConsumerNeverBacksOff(f: Flags, b: Buffer, stale: Packet)
    requires FrontCounted(b)
    ensures !ConsumerStepAsWritten(f, b, stale).Backoff?
    ensures ConsumerStepOf(f, b).Backoff? <==> ConsumerStepAsWritten(f, b, stale) == Decode(stale, b)
  {
  }

  /** In the video thread the packet variable has been released by
      av_packet_unref at the end of the previous iteration (or is the
      zeroed static before the first), so its size is 0 and
      decode_video_packet sends no chunk: the empty-queue iteration changes
      nothing and the thread spins without sleeping. */
  lemma EmptyVideoQueueSpins(f: Flags, b: Buffer, stale: Packet, allocLen: nat, first: bool, zeroTime: bool)
    requires FrontCounted(b) && VideoLoopContinues(f, b.n) && b.n == 0
    requires stale.size == 0 && allocLen > 0
    ensures ConsumerStepAsWritten(f, b, stale) == Decode(stale, b)
    ensures SplitChunks(stale.size, allocLen, first, zeroTime) == []
  {
  }

  /** In the audio thread a negative decoding result skips the
      av_packet_unref, so the packet variable keeps its bytes, and an
      empty-queue iteration hands the same packet to the decoder again. */
  lemma EmptyAudioQueueRefeeds(f: Flags, b: Buffer, stale: Packet)
    requires FrontCounted(b) && AudioLoopContinues(f, b.n) && b.n == 0
    ensures ConsumerStepAsWritten(f, b, stale).Decode?
    ensures ConsumerStepAsWritten(f, b, stale).packet == stale
  {
    ConsumerGuardsAgree(f, b.n);
  }

  /** The queue part of rpi_mp_seek: once the clock has been stopped
      (`clockStopped`) both packet queues are flushed; when stopping it
      fails, seek returns before touching them. */
  function SeekQueues(clockStopped: bool, video: Buffer, audio: Buffer): (r: (Buffer, Buffer))
    requires Shape(video) && Shape(audio)
    ensures !clockStopped ==> r == (video, audio)
    ensures clockStopped ==> Valid(r.0) && Valid(r.1) && Contents(r.0) == [] && Contents(r.1) == []
    ensures r.0.budget == video.budget && r.1.budget == audio.budget
  {
    if clockStopped then (Flush(video), Flush(audio)) else (video, audio)
  }

  /** After a seek that stopped the clock, the reader's next video packet
      that fits the budget is accepted and becomes the only queued video
      packet, while the audio queue stays empty. */
  lemma SeekThenReadRestarts(f: Flags, d: Demuxed, videoIdx: int, audioIdx: int, video: Buffer, audio: Buffer)
    requires Shape(video) && Shape(audio)
    requires ReaderContinues(f, true) && Route(d, videoIdx, audioIdx).VideoQueue? && d.size <= video.budget
    ensures var q := SeekQueues(true, video, audio);
            var r := ReaderStepOf(f, true, d, videoIdx, audioIdx, q.0, q.1);
            r.NextPacket? && Contents(r.video) == [Queued(d)] && Contents(r.audio) == []
  {
    var q := SeekQueues(true, video, audio);
    assert q.0.total + d.size <= q.0.budget;
    assert [] + [Queued(d)] == [Queued(d)];
  }

  /** The packets a decoding thread hands to the decoder before it leaves
      its loop or has to wait, given the flags stay as they are. */
  function Drain(f: Flags, b: Buffer): seq<Packet>
    requires Covered(b)
    decreases b.n
  {
    CoveredFrontCounted(b);
    match ConsumerStepOf(f, b)
    case Exit => []
    case Backoff => []
    case Decode(p, b') =>
      PopKeeps(b);
      [p] + Drain(f, b')
  }

  /** Natural end of stream: after reading has finished and while not
      stopped, a decoding thread decodes every queued packet, in queue
      order, and then leaves its loop. */
  lemma {:induction false} DrainAfterDoneReading(f: Flags, b: Buffer)
    requires Covered(b) && IsSet(f, DoneReading) && !IsSet(f, Stopped)
    ensures Drain(f, b) == Contents(b)
    decreases b.n
  {
    CoveredFrontCounted(b);
    if b.n > 0 {
      PopKeeps(b);
      DrainAfterDoneReading(f, Pop(b).buf);
    }
  }

  /** A stopped pipeline decodes nothing more. */
  lemma StoppedDrainsNothing(f: Flags, b: Buffer)
    requires Covered(b) && IsSet(f, Stopped)
    ensures Drain(f, b) == []
  {
  }
}

=== FILE: player_flags.dfy ===
/** The player's shared flag word (src/player.c) and the control
    operations that change it: the initial set chosen by rpi_mp_open, the
    pause toggle and stop. The OMX clock call inside pause is a parameter
    saying whether it succeeded; the mutexes are taken to make each
    operation atomic. */
module PlayerFlags {

  /** `int32_t flags`, as a word of bits. */
  type Flags = bv32

  const Stopped: Flags := 0x0001
  const Paused: Flags := 0x0002
  const FirstVideo: Flags := 0x0004
  const FirstAudio: Flags := 0x0008
  const PortSettingsChanged: Flags := 0x0010
  const HardwareDecodeAudio: Flags := 0x0020
  const DoneReading: Flags := 0x0040
  const Render2Texture: Flags := 0x0080
  const VideoPaused: Flags := 0x0100
  const AudioPaused: Flags := 0x0200
  const VideoStopped: Flags := 0x0400
  const AudioStopped: Flags := 0x0800
  const AnalogAudioOut: Flags := 0x1000

  /** The open flags a caller passes to rpi_mp_open (include/rpi_mp.h). */
  const RenderVideoToTexture: bv32 := 0x1
  const AnalogAudio: bv32 := 0x2

  predicate IsSet(f: Flags, flag: Flags)
  {
    f & flag != 0
  }

  /** SET_FLAG: the named bits become set and no other bit changes. */
  function SetFlag(f: Flags, flag: Flags): (r: Flags)
    ensures r & flag == flag
    ensures r & !flag == f & !flag
  {
    f | flag
  }

  /** UNSET_FLAG: the named bits become clear and no other bit changes. */
  function UnsetFlag(f: Flags, flag: Flags): (r: Flags)
    ensures r & flag == 0
    ensures r & !flag == f & !flag
  {
    f & !flag
  }

  /** The flag word rpi_mp_open starts a session with: both first-packet
      markers, texture rendering exactly when the caller asked for it, and
      analogue output exactly when the caller asked for it. */
  function OpenFlags(initFlags: bv32): (r: Flags)
    ensures IsSet(r, FirstVideo) && IsSet(r, FirstAudio)
    ensures IsSet(r, Render2Texture) <==> initFlags & RenderVideoToTexture != 0
    ensures IsSet(r, AnalogAudioOut) <==> initFlags & AnalogAudio != 0
    ensures r & !(FirstVideo | FirstAudio | Render2Texture | AnalogAudioOut) == 0
    ensures !IsSet(r, Stopped) && !IsSet(r, Paused) && !IsSet(r, DoneReading)
  {
    FirstVideo
    | FirstAudio
    | (if initFlags & RenderVideoToTexture != 0 then Render2Texture else 0)
    | (if initFlags & AnalogAudio != 0 then AnalogAudioOut else 0)
  }

  /** The clock time scale rpi_mp_pause asks for: 0 to freeze the clock,
      1.0 in 16.16 fixed point to let it run again. */
  const ScaleFrozen: int := 0
  const ScaleNormal: int := 0x1_0000

  /** One call of rpi_mp_pause: the new flag word, the scale sent to the
      clock, and whether the pause condition is broadcast to wake waiters. */
  datatype PauseStep = PauseStep(flags: Flags, scale: int, wake: bool)

  /** rpi_mp_pause. The scale is chosen from PAUSED before the clock call;
      when the call fails (`clockOk` false) nothing else happens. Otherwise
      PAUSED is toggled, and a resume broadcasts the pause condition. */
  function Pause(f: Flags, clockOk: bool): (r: PauseStep)
    ensures r.scale == (if IsSet(f, Paused) then ScaleNormal else ScaleFrozen)
    ensures !clockOk ==> r.flags == f && !r.wake
    ensures clockOk ==> (IsSet(r.flags, Paused) <==> !IsSet(f, Paused))
    ensures r.flags & !Paused == f & !Paused
    ensures r.wake <==> clockOk && IsSet(f, Paused)
  {
    var scale := if IsSet(f, Paused) then ScaleNormal else ScaleFrozen;
    if !clockOk then PauseStep(f, scale, false)
    else if !IsSet(f, Paused) then PauseStep(SetFlag(f, Paused), scale, false)
    else PauseStep(UnsetFlag(f, Paused), scale, true)
  }

  /** Pausing and then resuming, both with a working clock, restores the
      flag word; the clock is frozen by the first call and released by the
      second. */
  lemma PauseResumeRestores(f: Flags)
    requires !IsSet(f, Paused)
    ensures Pause(Pause(f, true).flags, true).flags == f
    ensures Pause(f, true).scale == ScaleFrozen
    ensures Pause(Pause(f, true).flags, true).scale == ScaleNormal
    ensures Pause(Pause(f, true).flags, true).wake
  {
  }

  /** Two successful pause calls restore the flag word from any state. */
  lemma PauseTwiceRestores(f: Flags)
    ensures Pause(Pause(f, true).flags, true).flags == f
  {
  }

  /** One call of rpi_mp_stop: the new flag word and whether waiters were
      woken by the resume it performs. */
  datatype StopStep = StopStep(flags: Flags, wake: bool)

  /** rpi_mp_stop: set STOPPED, then, if the pipeline was paused, resume it
      through rpi_mp_pause so that blocked threads can observe STOPPED.
      The decoder flush that follows is a hardware call and not modelled. */
  function Stop(f: Flags, clockOk: bool): (r: StopStep)
    ensures IsSet(r.flags, Stopped)
    ensures r.flags & !(Stopped | Paused) == f & !(Stopped | Paused)
    ensures !IsSet(f, Paused) ==> r.flags == SetFlag(f, Stopped) && !r.wake
    ensures IsSet(f, Paused) && clockOk ==> !IsSet(r.flags, Paused) && r.wake
    ensures IsSet(f, Paused) && !clockOk ==> IsSet(r.flags, Paused) && !r.wake
  {
    var s := SetFlag(f, Stopped);
    if IsSet(s, Paused) then
      var p := Pause(s, clockOk);
      StopStep(p.flags, p.wake)
    else StopStep(s, false)
  }

  /** Pausing never touches STOPPED: once stop has set it, no later pause
      or resume clears it. */
  lemma PauseKeepsStopped(f: Flags, clockOk: bool)
    requires IsSet(f, Stopped)
    ensures IsSet(Pause(f, clockOk).flags, Stopped)
  {
    var p := Pause(f, clockOk).flags;
    assert p & !Paused == f & !Paused;
    assert (p & !Paused) & Stopped == p & Stopped;
    assert (f & !Paused) & Stopped == f & Stopped;
  }

  /** A second stop after one that left the pipeline unpaused changes
      nothing. */
  lemma StopIdempotent(f: Flags, clockOk: bool)
    requires IsSet(f, Stopped) && !IsSet(f, Paused)
    ensures Stop(f, clockOk).flags == f
  {
  }
}

=== FILE: timestamps.dfy ===
/** The 64-bit media timestamp as the OpenMAX clock carries it
    (src/player.c): pts__omx_timestamp stores a signed 64-bit value as two
    unsigned 32-bit words, and rpi_mp_current_time joins the words back
    into an unsigned 64-bit value and converts microseconds to seconds.
    The floating-point scaling from stream time base to microseconds is
    not modelled; the conversion starts from the integer it produces. */
module Timestamps {

  const TwoTo31: int := 0x8000_0000
  const TwoTo32: int := 0x1_0000_0000
  const TwoTo63: int := 0x8000_0000_0000_0000
  const TwoTo64: int := 0x1_0000_0000_0000_0000

  /** AV_TIME_BASE: clock ticks are microseconds. */
  const AvTimeBase: int := 1000000

  predicate IsInt64(x: int)
  {
    -TwoTo63 <= x < TwoTo63
  }

  /** OMX_TICKS: a low and a high unsigned 32-bit word. */
  datatype Ticks = Ticks(low: int, high: int)

  predicate WellFormed(t: Ticks)
  {
    0 <= t.low < TwoTo32 && 0 <= t.high < TwoTo32
  }

  /** Division by a positive modulus is determined by quotient and
      remainder. */
  lemma DivModOf(q: int, r: int, m: int)
    requires m > 0 && 0 <= r < m
    ensures (q * m + r) / m == q && (q * m + r) % m == r
  {
    var a := q * m + r;
    var k := q - a / m;
    assert k * m == a % m - r;
  }

  /** pts__omx_timestamp: the low word is the value truncated to 32 bits,
      the high word its arithmetic right shift by 32 truncated to 32 bits. */
  function ToTicks(x: int): (t: Ticks)
    requires IsInt64(x)
    ensures WellFormed(t)
  {
    Ticks(x % TwoTo32, (x / TwoTo32) % TwoTo32)
  }

  /** `low | high << 32` in 64-bit unsigned arithmetic; the two words
      occupy disjoint bits, so the or is a sum. Splitting the result again
      gives back both words. */
  function TicksValue(t: Ticks): (v: int)
    requires WellFormed(t)
    ensures 0 <= v < TwoTo64
    ensures v % TwoTo32 == t.low && v / TwoTo32 == t.high
  {
    DivModOf(t.high, t.low, TwoTo32);
    t.low + t.high * TwoTo32
  }

  /** Recombining the words yields the value modulo 2^64: the value itself
      when it is non-negative, its two's complement otherwise. */
  lemma TicksRoundTrip(x: int)
    requires IsInt64(x)
    ensures TicksValue(ToTicks(x)) == x % TwoTo64
    ensures 0 <= x ==> TicksValue(ToTicks(x)) == x
    ensures x < 0 ==> TicksValue(ToTicks(x)) == x + TwoTo64
  {
    var q := x / TwoTo32;
    var r := x % TwoTo32;
    assert x == q * TwoTo32 + r;
    if x >= 0 {
      assert q >= 0;
      DivModOf(0, q, TwoTo32);
      DivModOf(0, x, TwoTo64);
    } else {
      assert q < 0;
      DivModOf(-1, q + TwoTo32, TwoTo32);
      DivModOf(-1, x + TwoTo64, TwoTo64);
      assert r + (q + TwoTo32) * TwoTo32 == x + TwoTo64;
    }
  }

  /** Both words are zero exactly for the value 0, so the decoder's
      "time unknown" test on the words is a test for a zero timestamp. */
  lemma TicksZeroIff(x: int)
    requires IsInt64(x)
    ensures ToTicks(x) == Ticks(0, 0) <==> x == 0
  {
    TicksRoundTrip(x);
    if ToTicks(x) == Ticks(0, 0) {
      assert TicksValue(ToTicks(x)) == 0;
    }
  }

  /** rpi_mp_current_time: whole seconds of the clock's media time, or 0
      when the clock query (`clockOk`) fails. */
  function CurrentTime(clockOk: bool, t: Ticks): (secs: int)
    requires WellFormed(t)
    ensures !clockOk ==> secs == 0
    ensures clockOk ==> 0 <= secs && secs * AvTimeBase <= TicksValue(t) < (secs + 1) * AvTimeBase
  {
    if !clockOk then 0 else TicksValue(t) / AvTimeBase
  }

  /** For a non-negative media time, the seconds reported are the
      microseconds stored divided by 10^6, rounded down. */
  lemma CurrentTimeOfTimestamp(x: int)
    requires 0 <= x < TwoTo63
    ensures CurrentTime(true, ToTicks(x)) == x / AvTimeBase
  {
    TicksRoundTrip(x);
  }
}

=== FILE: video_chunks.dfy ===
/** How decode_video_packet (src/player.c) feeds one video packet to the
    decoder: in chunks no larger than the decoder's input buffer
    (`nAllocLen`, a parameter here), each stamped with the packet's
    timestamp and with the buffer flags STARTTIME, TIME_UNKNOWN and
    ENDOFFRAME. The OMX buffer requests, the copy of the bytes and the
    port-settings handshake are hardware calls and not modelled. */
module VideoChunks {
  import opened PlayerFlags
  import opened Timestamps

  /** One decoder input buffer: how many bytes it carries and its flags. */
  datatype Chunk = Chunk(len: nat, startTime: bool, timeUnknown: bool, endOfFrame: bool)

  /** The chunks of one packet and the player's flag word afterwards. */
  datatype Split = Split(chunks: seq<Chunk>, flags: Flags)

  /** Bytes carried by a run of chunks. */
  function Carried(cs: seq<Chunk>): nat
  {
    if |cs| == 0 then 0 else cs[0].len + Carried(cs[1..])
  }

  /** The chunk loop of decode_video_packet, from `size` bytes still to
      send. Each chunk takes min(remaining, allocLen) bytes; a chunk sent
      while FIRST_VIDEO is set (`first`) gets STARTTIME, and the flag is
      cleared, so every later chunk sees it clear; a chunk sent with the
      flag clear gets TIME_UNKNOWN when both timestamp words are 0
      (`zeroTime`); the chunk that empties the packet gets ENDOFFRAME. The
      sizes and flags of the chunks are stated by ChunkSizes and
      ChunkFlags. */
  function SplitChunks(size: nat, allocLen: nat, first: bool, zeroTime: bool): (cs: seq<Chunk>)
    requires allocLen > 0
    ensures Carried(cs) == size
    ensures |cs| == 0 <==> size == 0
    decreases size
  {
    if size == 0 then []
    else
      var len := if size > allocLen then allocLen else size;
      [Chunk(len, first, !first && zeroTime, size - len == 0)]
        + SplitChunks(size - len, allocLen, false, zeroTime)
  }

  /** decode_video_packet on a packet of `size` bytes with the player's
      flag word `f` and the packet's timestamp `ticks`: the chunks sent,
      and the flag word afterwards, with FIRST_VIDEO cleared once any chunk
      has been sent. */
  function SplitPacket(size: nat, allocLen: nat, f: Flags, ticks: Ticks): (r: Split)
    requires allocLen > 0
    ensures Carried(r.chunks) == size
    ensures |r.chunks| == 0 <==> size == 0
    ensures size == 0 ==> r.flags == f
    ensures size > 0 ==> r.flags == UnsetFlag(f, FirstVideo) && !IsSet(r.flags, FirstVideo)
  {
    var cs := SplitChunks(size, allocLen, IsSet(f, FirstVideo), ticks.low == 0 && ticks.high == 0);
    if size == 0 then Split(cs, f) else Split(cs, UnsetFlag(f, FirstVideo))
  }

  /** Every chunk carries between 1 and allocLen bytes, and every chunk but
      the last is full. */
  predicate SizedChunks(cs: seq<Chunk>, allocLen: nat)
  {
    && (forall i :: 0 <= i < |cs| ==> 0 < cs[i].len <= allocLen)
    && (forall i :: 0 <= i < |cs| - 1 ==> cs[i].len == allocLen)
  }

  /** ENDOFFRAME marks exactly the last chunk. */
  predicate EndsFrame(cs: seq<Chunk>)
  {
    forall i :: 0 <= i < |cs| ==> (cs[i].endOfFrame <==> i == |cs| - 1)
  }

  /** STARTTIME marks exactly the first chunk when `first` holds, and no
      chunk otherwise. */
  predicate StartsTime(cs: seq<Chunk>, first: bool)
  {
    forall i :: 0 <= i < |cs| ==> (cs[i].startTime <==> i == 0 && first)
  }

  /** TIME_UNKNOWN marks exactly the chunks without STARTTIME when the
      timestamp is zero. */
  predicate UnknownTime(cs: seq<Chunk>, zeroTime: bool)
  {
    forall i :: 0 <= i < |cs| ==> (cs[i].timeUnknown <==> !cs[i].startTime && zeroTime)
  }

  lemma {:induction false} ChunkSizes(size: nat, allocLen: nat, first: bool, zeroTime: bool)
    requires allocLen > 0
    ensures SizedChunks(SplitChunks(size, allocLen, first, zeroTime), allocLen)
    decreases size
  {
    if size > 0 {
      var len := if size > allocLen then allocLen else size;
      ChunkSizes(size - len, allocLen, false, zeroTime);
      var rest := SplitChunks(size - len, allocLen, false, zeroTime);
      var cs := SplitChunks(size, allocLen, first, zeroTime);
      assert cs[0].len == len && cs[1..] == rest;
      assert |rest| > 0 ==> len == allocLen;
    }
  }

  /** The flags of the chunks: ENDOFFRAME on the last one; STARTTIME on the
      first one exactly when FIRST_VIDEO is set; TIME_UNKNOWN on the others
      when the timestamp is zero. */
  lemma {:induction false} ChunkFlags(size: nat, allocLen: nat, first: bool, zeroTime: bool)
    requires allocLen > 0
    ensures EndsFrame(SplitChunks(size, allocLen, first, zeroTime))
    ensures StartsTime(SplitChunks(size, allocLen, first, zeroTime), first)
    ensures UnknownTime(SplitChunks(size, allocLen, first, zeroTime), zeroTime)
    decreases size
  {
    if size > 0 {
      var len := if size > allocLen then allocLen else size;
      ChunkFlags(size - len, allocLen, false, zeroTime);
      var rest := SplitChunks(size - len, allocLen, false, zeroTime);
      var cs := SplitChunks(size, allocLen, first, zeroTime);
      assert cs == [Chunk(len, first, !first && zeroTime, size - len == 0)] + rest;
      forall i | 1 <= i < |cs|
        ensures cs[i] == rest[i - 1]
      {
      }
    }
  }

  /** The number of chunks is the packet size divided by the buffer size,
      rounded up. */
  lemma {:induction false} ChunkCount(size: nat, allocLen: nat, first: bool, zeroTime: bool)
    requires allocLen > 0
    ensures size == 0 ==> |SplitChunks(size, allocLen, first, zeroTime)| == 0
    ensures size > 0 ==>
              var n := |SplitChunks(size, allocLen, first, zeroTime)|;
              (n - 1) * allocLen < size <= n * allocLen
    decreases size
  {
    if size > allocLen {
      ChunkCount(size - allocLen, allocLen, false, zeroTime);
      var m := |SplitChunks(size - allocLen, allocLen, false, zeroTime)|;
      assert |SplitChunks(size, allocLen, first, zeroTime)| == m + 1;
      MulSucc(m, allocLen);
      MulSucc(m - 1, allocLen);
    }
  }

  lemma MulSucc(m: int, a: int)
    ensures (m + 1) * a == m * a + a
  {
  }

  /** STARTTIME marks only the first chunk of the stream: once a packet
      with any bytes has been fed, no chunk of a later packet carries it. */
  lemma StartTimeOnlyOnce(a: nat, b: nat, allocLen: nat, f: Flags, t1: Ticks, t2: Ticks)
    requires allocLen > 0 && a > 0
    ensures StartsTime(SplitPacket(b, allocLen, SplitPacket(a, allocLen, f, t1).flags, t2).chunks, false)
  {
    FirstVideoClear(b, allocLen, SplitPacket(a, allocLen, f, t1).flags, t2);
  }

  /** With FIRST_VIDEO clear, no chunk carries STARTTIME. */
  lemma FirstVideoClear(size: nat, allocLen: nat, g: Flags, ticks: Ticks)
    requires allocLen > 0 && !IsSet(g, FirstVideo)
    ensures StartsTime(SplitPacket(size, allocLen, g, ticks).chunks, false)
  {
    var zeroTime := ticks.low == 0 && ticks.high == 0;
    assert SplitPacket(size, allocLen, g, ticks).chunks == SplitChunks(size, allocLen, false, zeroTime);
    ChunkFlags(size, allocLen, false, zeroTime);
  }

  /** With a timestamp computed from a media time `x`, TIME_UNKNOWN is
      set on the chunks without STARTTIME exactly when the time is 0. */
  lemma TimeUnknownMeansZeroTime(size: nat, allocLen: nat, f: Flags, x: int)
    requires allocLen > 0 && IsInt64(x)
    ensures UnknownTime(SplitPacket(size, allocLen, f, ToTicks(x)).chunks, x == 0)
  {
    TicksZeroIff(x);
    ChunkFlags(size, allocLen, IsSet(f, FirstVideo), x == 0);
  }
}
